=== FILE: README.md ===
# leads-bot delivery model

This Dafny project models how the leads-bot Telegram bot decides what to send and to whom. Telegram, the database and the bot's chat UI are modelled as plain values and oracles. The two places that make delivery decisions are modelled:

- **The queue dispatcher** (`main` in `clients.py`).
  - It keeps a dict of Telethon sessions keyed by account id. A session is never closed, so an account deleted from the table keeps its session and can still be drawn.
  - On every pass it opens a session for each stored account that has none.
  - It then walks the queued `Message` rows. For each row it:
    - draws a session at random;
    - picks the welcome or member-left template;
    - resolves the target user: direct `get_entity` first, and a scan of the chat's participants only when that raises;
    - sends the template's text, or every populated media slot in the order photo, audio, document, video.
- **The event sender** (`main.py`).
  - The four update handlers (new member, member left, join request, chat-member update) find the first chat configuration whose stored chat string is the chat's id or title.
  - They draw one of its accounts and send every template of the right kind through `send_message_from_model_with_client`.
  - That function keeps the sticky `users` map from user id to account id. It scans the chat's participants once, falls back to `get_entity`, and applies the same text-or-media rule.

Around these sit the small pure rules of the administrator console:

- the display name of a new account and the rule that no two accounts share one;
- the `prefix:N` callback data and its parse;
- the account-selection step of chat configuration;
- the "numeric chat id" pattern and the labels of configured chats;
- the mapping of a received message onto a stored template.

Modules:

- `Wrappers` holds `Option`, `Result` and map lookup.
- `PyText` holds Python's `str(int)`, `int(str)`, `split(':')[-1]` and the two chat-id regexes. It covers Python's `$`, which also matches before a final newline.
- `Content` holds the shared parts:
  - the template record and Python truthiness;
  - the text-or-media rule;
  - `random.choice` as `Choose(xs, pick)`: any element can be drawn, and the caller supplies the draw;
  - the network as two oracles;
  - the `Outbox` class, whose `log` is the sequence of sends.
- `Dispatcher` holds `clients.py`: a `Dispatcher` class with the `clients` map, its insertion order and an outbox.
- `EventSender` holds the handlers and `send_message_from_model_with_client`: a `Sender` class with the `users` map and an outbox.
- `Console` holds the account table, callbacks, account selection, chat labels and template storing.

Each imperative method is proved against a specification function of the same module (`Pass`, `Deliver`, `SendOnce`, `SendAll`, `Handle`, `AfterChoice`, …). The properties are lemmas about those functions.

Behaviours of the code that the model keeps:

- Every populated media slot is sent.
- A failed lookup is never retried with another account.
- Queue rows are never deleted, so the next pass sends them again.
- An exception is not caught when it is raised outside the `try` around the direct `get_entity` (clients.py:44-46) or, in the main.py handlers, when it is other than `RuntimeError` (main.py:676, 695, 715, 736, 751). It ends the pass, and with it `main`, or the handler. The `RuntimeError` retry is left out.
- The sticky `users` entry is written before the target is looked up, not after a successful send. Within one handler run to completion, an existing entry is written back unchanged. Two handlers interleaved at the `await` between main.py:578 and main.py:582 can replace it (see "## Left out").
- The main.py participant scan has no `break`, so it keeps the *last* member with the id. `clients.py` keeps the first. `EventSender.LastMatchIsFirstWhenUnique` shows the two agree when ids are unique.

## Model

| member | source | states |
|---|---|---|
| PyText.NatToString | main.py:211 | `str(n)` of a non-negative key is a non-empty string of decimal digits with no leading zero |
| PyText.ParseIntOfIntToString | main.py:226 | `int(str(n)) == n` for every integer `n` |
| PyText.LastSegment | main.py:226 | `s.split(sep)[-1]` contains no separator, is a suffix of `s`, and is preceded by a separator when it is not all of `s` |
| PyText.LastSegmentAfterSeparator | main.py:226 | the last segment of `p + sep + t` is `t` whenever `t` holds no separator |
| PyText.NumericChatIdOfIntToString | main.py:385 | `str(n)` matches `^-\d+$` exactly when `n` is negative |
| PyText.NumericChatValue | main.py:386 | `int()` of a string matching `^-\d+$` is never positive |
| PyText.NumericChatValueOfIntToString | main.py:385-386 | for negative `n`, `str(n)` matches and `int()` of it gives back `n` |
| PyText.EndThenLNeverMatches | main.py:613 | the pattern `^-\d+$l` matches no string |
| Content.MediaPayloads | clients.py:57-69 | one file per truthy media slot, as many files as truthy slots, each with the template's caption |
| Content.MediaPayloadAt | clients.py:57-69 | the `j`-th truthy slot is sent at the position given by the number of truthy slots before it, so slot order is kept and each slot is sent once |
| Content.TextSentAlone | clients.py:54-55 | a truthy text is sent once, alone, and whatever the media slots hold does not change the sends |
| Content.EmptyTemplateSendsNothing | clients.py:53-58 | a template with no truthy text and no truthy slot sends nothing |
| Content.AddressedAt | clients.py:55-69 | the `k`-th send carries the `k`-th payload, to the resolved user, through the drawn session |
| Content.Choose | clients.py:28 | `random.choice` returns an element of the non-empty list, and any index can be drawn |
| Content.Outbox.SendModel | clients.py:53-69 | the log grows by exactly the template's text, or by its truthy media in slot order, addressed to the user through the session |
| Dispatcher.OpenedKeepsAndCovers | clients.py:18-26 | after the account loop every stored account has exactly one session, every other session is one that was already open (sessions of deleted accounts stay), no account has two, and sessions already open keep their place |
| Dispatcher.OpenedIdempotent | clients.py:17-26 | a second account loop over the same accounts opens nothing |
| Dispatcher.NextPassRepeats | clients.py:17-27 | after a pass that raised nothing, the next pass with the same stored accounts keeps the same session pool, so the undeleted rows, with the same draws and the same network answers, are sent again exactly as before |
| Dispatcher.FirstMatch | clients.py:49-52 | the scan yields a member with the wanted id, and yields none exactly when no member has it |
| Dispatcher.FirstMatchIsFirst | clients.py:49-52 | the scan stops at the first member with the wanted id |
| Dispatcher.EmptyPoolSendsNothing | clients.py:28 | with no session open, `choice` raises on the first row and the pass sends nothing |
| Dispatcher.WelcomeTemplateWins | clients.py:29-32 | a truthy `welcome_message_id` selects the welcome template: a delivered row carries exactly the welcome row it names (and is delivered whenever that row exists and the target lookup raises nothing), a missing welcome row raises, and the member-left table is never read |
| Dispatcher.MemberLeftTemplateOtherwise | clients.py:33-36 | a falsy `welcome_message_id` selects the member-left template: a delivered row carries exactly the member-left row it names (and is delivered whenever that row exists and the lookup raises nothing), a `None` id or missing row raises, and the welcome table is never read |
| Dispatcher.ResolutionOrder | clients.py:44-52 | when direct lookup succeeds its result is the target and the participant oracle is not consulted; when it raises, the first participant with the id is the target |
| Dispatcher.UnfoundUserSendsNothing | clients.py:43-53 | a row whose user is found by neither route sends nothing and raises nothing |
| Dispatcher.RowSendsToTarget | clients.py:28-69 | every send of a row goes through the drawn session to the resolved user, one per outgoing payload and in order; no target means no send |
| Dispatcher.CrashEndsPass | clients.py:27-69 | once a row has raised, later rows send nothing |
| Dispatcher.ResolveTarget | clients.py:43-52 | the `try`/`except` block computes the resolution function, including each way it raises |
| Dispatcher.ScanFirst | clients.py:49-52 | the `for ... break` loop returns the first member with the wanted id |
| Dispatcher.Dispatcher.constructor | clients.py:15 | `main` starts with no session and nothing sent |
| Dispatcher.Dispatcher.OpenMissing | clients.py:18-26 | the account loop leaves the sessions as the opened order, keeps every existing session object and creates only fresh ones |
| Dispatcher.Dispatcher.ProcessRow | clients.py:28-69 | one row's result is the row specification, and the log grows by exactly that row's sends |
| Dispatcher.Dispatcher.ProcessRows | clients.py:27-69 | the message loop's log and exception are those of the pass specification |
| Dispatcher.Dispatcher.RunPass | clients.py:17-69 | one `while True` iteration: account loop, then message loop, against both specifications |
| EventSender.FirstApplicable | main.py:665-666 | the configuration chosen names the chat by id or title; none is chosen exactly when no configuration does |
| EventSender.FirstApplicableIsFirst | main.py:665-679 | the first applicable configuration in table order is the one used |
| EventSender.FindConfig | main.py:665-679 | the configuration loop with `break` returns the first applicable configuration |
| EventSender.LastMatchSound | main.py:588-591 | the membership scan finds a member with the id, and finds none exactly when there is none |
| EventSender.LastMatchIsLast | main.py:588-591 | without `break`, the scan returns the last member with the id |
| EventSender.LastMatchIsFirstWhenUnique | main.py:588-591 | with at most one member per id, main.py's scan and clients.py's scan find the same member |
| EventSender.ScanLast | main.py:588-591 | the membership loop leaves the last member with the id in `user`, and `member_in_chat` holds exactly when one was found |
| EventSender.TargetOrder | main.py:583-594 | with no truthy chat the target is exactly `get_entity`'s result, and it raises exactly when `get_entity` does; with a chat whose participants include the user, the target is exactly the last such member (`LastMatch`) and `get_entity` is not consulted; a user missing from the participants, such as a join requester, falls back to `get_entity`; a failing participant fetch raises |
| EventSender.Bind | main.py:577-582 | after the sticky write the user has an entry, equal to the recorded account if there was one and otherwise the drawn one; other users' presence is unchanged |
| EventSender.StickyIdentity | main.py:577-582 | an existing entry wins over the drawn account and is never changed, a new user is bound to the drawn account, other users are untouched, and every send goes through the bound account |
| EventSender.SendAllAllOrNothing | main.py:668-679 | with every repeated lookup giving the same answer, a handler's template loop sends every template, in order, through one account to one target, or raises at the first template and sends nothing; either way the user is bound to that account |
| EventSender.SendAllStopsAtFailure | main.py:668-679 | after a send has raised, later templates are not sent |
| EventSender.HandleSelectsFirstConfig | main.py:662-754 | an update for an unconfigured chat, or a member update of another status, changes nothing; otherwise an empty account list raises and sends nothing, and with accounts the handler is the template loop over the first applicable configuration's welcome list (with the chat) or member-left list (without): an empty list sends nothing; with repeated lookups giving the same answer, a non-empty one is sent whole and in order when the lookup succeeds, and when it raises nothing is sent and the handler raises |
| EventSender.Sender.SendFromModel | main.py:567-607 | `send_message_from_model_with_client` updates `users` and the log exactly as the single-send specification |
| EventSender.Sender.SendTemplates | main.py:668-679 | the template loop updates `users` and the log exactly as the loop specification |
| EventSender.Sender.HandleEvent | main.py:662-754 | each handler updates `users` and the log exactly as the handler specification |
| Console.DisplayNameRule | main.py:127-130 | a truthy username is the name; otherwise the name is the first name (`None` when absent), followed by a space and the last name exactly when the last name is truthy |
| Console.Usernames | main.py:124-126 | the list of stored display names, one per row in row order |
| Console.AppendKeepsNamesUnique | main.py:131-133 | adding an account whose name is not stored keeps the stored names duplicate-free |
| Console.AccountTable.Register | main.py:196-202 | an account is appended, with the next key, exactly when its display name is not stored; names and keys stay unique |
| Console.FindRow | main.py:227 | `session.get` by key returns a row with that key, and returns none exactly when no row has it |
| Console.FindRowOfStored | main.py:227 | with unique keys, looking up a stored row's key finds that row |
| Console.WithoutId | main.py:227-229 | after deleting by key, the rows are those that had another key |
| Console.WithoutIdKeepsUnique | main.py:227-229 | deleting keeps names and keys unique |
| Console.AccountTable.Remove | main.py:224-229 | the row with the key is deleted and names stay unique; the result says whether there was one (`delete(None)` raises otherwise) |
| Console.CallbackRoundTrip | main.py:211-226 | the data of a button built for key `id` is accepted by its handler's `prefix:\d+` filter and parses back to `id` |
| Console.UnchosenExactly | main.py:280-284 | the accounts offered are exactly the stored accounts not yet chosen |
| Console.UnchosenEmpty | main.py:280-285 | with every stored account chosen, nothing is offered |
| Console.OfferList | main.py:280-284 | the keyboard loop collects exactly the unchosen accounts in table order |
| Console.SelectionStep | main.py:274-302 | id 0 goes to chat entry and chooses nothing; another id appends exactly its looked-up account, offers exactly the unchosen accounts while one is left, and goes to chat entry once none is left |
| Console.LastRemainingFinishes | main.py:274-302 | pressing the button of the last unchosen account appends it and moves to chat entry |
| Console.ChatSetup.Reset | main.py:255 | `configure_chat` empties the chosen list |
| Console.ChatSetup.OnAccount | main.py:274-302 | `on_account` changes the chosen list and shows the screen exactly as the selection specification |
| Console.ListLabelAsWrittenRaises | main.py:385-386 | as written, listing configured chats raises for every chat stored by numeric id |
| Console.ChatLabelShowsTitle | main.py:385-392 | corrected, a chat stored as a negative id is listed by its Telegram title |
| Console.ChatLabelOfName | main.py:389-392 | a chat stored by title or username is listed by itself, as written and corrected, and titles its options menu by itself |
| Console.OptionsTitleShowsRawId | main.py:613-616 | as written, the options menu of a chat stored by numeric id shows the raw id rather than the title |
| Console.AudioOrVideoNotStored | main.py:355-377 | as written, `add_message_model` raises for a message with audio or video |
| Console.StoredMessageReplays | main.py:355-377 | corrected, a stored message is replayed as received: its text alone, or its largest photo, audio, document and video in that order with its caption; where the as-written mapping succeeds it stores the same template |
| Dispatcher.Opened | clients.py:18-26 | the account loop as a function of the open sessions' order and the stored accounts; its properties are `OpenedKeepsAndCovers` and `OpenedIdempotent` |
| Dispatcher.SelectTemplate | clients.py:29-36 | the template lookup by `welcome_message_id` or `member_left_message_id`, `None` where the row is missing; its properties are `WelcomeTemplateWins` and `MemberLeftTemplateOtherwise` |
| Dispatcher.Resolve | clients.py:43-52 | the target lookup with its exceptions; its properties are `ResolutionOrder` and `UnfoundUserSendsNothing` |
| Dispatcher.Deliver | clients.py:28-69 | one row: draw, template, target, sends or the exception raised; its properties are `RowSendsToTarget`, `WelcomeTemplateWins` and `UnfoundUserSendsNothing` |
| Dispatcher.Pass | clients.py:27-69 | the message loop: sends of every row until the first exception; its properties are `CrashEndsPass`, `EmptyPoolSendsNothing` and `NextPassRepeats` |
| Content.Outgoing | clients.py:53-69 | the text-or-media rule; its properties are `TextSentAlone`, `MediaPayloads`, `MediaPayloadAt` and `EmptyTemplateSendsNothing` |
| EventSender.Applies | main.py:666 | a configuration applies when its chat string is the chat's id as `str` or its title; `FirstApplicable` states its use |
| EventSender.LastMatch | main.py:586-592 | the participant scan without `break`; its properties are `LastMatchSound`, `LastMatchIsLast` and `LastMatchIsFirstWhenUnique` |
| EventSender.Target | main.py:583-594 | whom a send goes to; its properties are `TargetOrder` |
| EventSender.SendOnce | main.py:567-607 | one `send_message_from_model_with_client` call; its properties are `StickyIdentity` |
| EventSender.SendAll | main.py:668-679 | a handler's template loop; its properties are `SendAllAllOrNothing` and `SendAllStopsAtFailure` |
| EventSender.Handle | main.py:662-754 | the four handlers; its properties are `HandleSelectsFirstConfig` |
| Console.DisplayName | main.py:127-130 | the display name of a new account; `DisplayNameRule` states it case by case |
| Console.AfterChoice | main.py:274-302 | `on_account`'s chosen list and screen; its properties are `SelectionStep` and `LastRemainingFinishes` |
| Console.CallbackId | main.py:226 | `int(data.split(':')[-1])`, `None` where `int` raises; `CallbackRoundTrip` states its round trip |
| Console.ListLabelAsWritten | main.py:384-392 | the chat list's label as written; `ListLabelAsWrittenRaises` and `ChatLabelOfName` state it |
| Console.ChatLabel | main.py:384-392 | the chat list's label with `get_chat` awaited; `ChatLabelShowsTitle` and `ChatLabelOfName` state it |
| Console.OptionsTitleAsWritten | main.py:613-616 | the options heading as written; `OptionsTitleShowsRawId` states it |
| Console.AddMessageModelAsWritten | main.py:355-377 | the stored template as written, or the exception raised; `AudioOrVideoNotStored` states it |
| Console.AddMessageModel | main.py:355-377 | the stored template with audio and video read as single objects; `StoredMessageReplays` states it |
| PyText.IntToString | main.py:211 | Python's `str(int)`; `NatToString` and `ParseIntOfIntToString` state it |
| PyText.ParseInt | main.py:226 | Python's `int(str)` on a sign and ASCII digits, `None` where it raises; `ParseIntOfIntToString` states it |
| PyText.IsNumericChatId | main.py:385 | `re.findall(r'^-\d+$', s)` is non-empty; `NumericChatIdOfIntToString` and `NumericChatValue` state it |
| PyText.MatchesEndThenL | main.py:613 | the `^-\d+$l` test of the options heading; `EndThenLNeverMatches` states that it never fires |
| Content.Slots | clients.py:37-42 | the `medias` list: photo, audio, document and video ids in that order; the `ensures` fixes its four slots, and `MediaPayloadAt` states the order they are sent in |
| EventSender.StickyAccount | main.py:577-578 | the account a send goes through: the user's recorded one if any, else the drawn one; `StickyIdentity` states it |
| EventSender.Direct | main.py:593-594 | `get_entity(user_id)`, raising when the lookup does; `TargetOrder` states when it decides the target |
| EventSender.ReactionOf | main.py:661-742 | which list an update sends: welcome for a new member, a join request or the status `'member'`; member-left for a member who left or the status `'left'`; nothing for any other status; `HandleSelectsFirstConfig` states its use |
| EventSender.Recipient | main.py:671-747 | the user a handler sends to: `from_user.id`, or `user_chat_id` for a join request; `HandleSelectsFirstConfig` states its use |
| Console.CallbackData | main.py:211 | `f'{prefix}:{id}'` of the keyboards; `CallbackRoundTrip` states its round trip |
| Console.MentionsCallback | main.py:272 | the `re.findall(r'prefix:\d+', c.data)` filters of the callback handlers; `CallbackRoundTrip` states that they accept the keyboards' data |
| Console.Unchosen | main.py:280-284 | the accounts the offer loop collects; `UnchosenExactly`, `UnchosenEmpty` and `OfferList` state it |
| EventSender.Sender.constructor | main.py:42 | the process starts with an empty `users` map and nothing sent |
| Console.ChatSetup.constructor | main.py:38 | the process starts with an empty chosen-accounts list |

## Left out

- Telethon and bot API calls are not modelled. `connect`, `start`, `sign_in`, `get_me`, `send_message`, `send_file`, `bot.get_file` and `download_file` are foreign calls.
  - `get_entity` and `get_participants` are oracles of the `Network` value; `None` means "raises". The same question put again gets the same answer, so a lookup that succeeds for one template and raises for a later one (a flood wait, say) is not modelled.
  - Sends are entries of an outbox log.
  - A failing `start()` or a failing send is not modelled.
- Writing downloaded media to local files (clients.py:63-64, main.py:603-604) is file I/O and is not modelled.
- SQLAlchemy sessions, commits and relationships are not modelled. Rows are plain values: queue rows and template tables are parameters, and the `Account` table is the `AccountTable` class.
- `leads_bot/models.py` is not part of this model. It declares only `Lead` and `Message`, not the `Account`, `ChatConfig` and template tables the core imports. Those tables are modelled from the fields the core reads.
- The outer `while True` of `clients.py` is modelled one pass at a time (`RunPass`); `NextPassRepeats` relates consecutive passes.
- The `asyncio.sleep(3)` retry with recursive re-invocation on `RuntimeError` (main.py:676-678 and the three sibling handlers) is not modelled. It is an unbounded async retry.
- `random.choice` is not random here. The caller supplies the draw as a natural number, reduced modulo the list length.
- `int()` is modelled as an optional sign followed by ASCII digits. Surrounding whitespace, underscores and non-ASCII digits, which Python also accepts, are not modelled.
- PyText.IsNumericChatId: `\d` is modelled as an ASCII digit, here and in `Console.MentionsCallback`. In a Python `str` pattern `\d` matches every Unicode decimal digit, so a chat stored as `-` followed by, say, Arabic-Indic digits counts as numeric in the source (its listing raises as written, and corrected `int` reads it) but is listed by itself in the model.
- Console.AfterChoice: `Offer` lists every unchosen account, but main.py:282 keys the keyboard by `account.username`, so two unchosen accounts with the same name would show as one button. This cannot happen while names are unique, which `Console.AccountTable.Register` and `Remove` preserve. `Console.SelectionStep` does not assume it.
- `Dispatcher.QueuedMessage`: `int(message.user_id)` and `int(message.chat_id)` are taken as already applied, so a non-numeric stored id is not modelled. A missing chat id raises, which is modelled.
- EventSender.StickyIdentity: holds only for a handler run to completion. The handlers are `async` and the bot library may run them concurrently; the model runs each one to completion. One join yields both a `new_chat_members` message (main.py:662) and a `chat_member` update (main.py:721) for the same user. Two such handlers can both miss `users` at main.py:577, draw different accounts, and the later write at main.py:582 replaces the earlier entry.
- EventSender.SendAllAllOrNothing: "every template through one account" holds only for a handler run to completion. An interleaved handler can replace the user's entry (main.py:582) between two templates, so later templates of the first handler go through the other account. "All or nothing" also holds only because each template's `send_message_from_model_with_client` call fetches participants (main.py:587) and may call `get_entity` (main.py:594) again, and the model gives every repeated lookup the same answer. A later lookup that raises after earlier templates were sent is not modelled.
- `Console.DisplayNameRule`: Unicode handling of names is not modelled; strings are sequences of characters.
- The conversational `MyStates` flow, the keyboards and their texts, the access check in `start`, the show-IDs toggle and `show_chat_id` are UI and are not modelled.
- `send_message_from_model` (main.py:550-564) is not modelled. It is the bot-side preview of a template and does not deliver anything.
- The handler filters other than the callback-data pattern, and the editing of template lists (main.py:480-547), are not modelled. They only delete and re-add rows through the same `add_message_model`.

## Findings

| source | as written | input that shows it | evidently intended | confidence | as-written member | corrected member |
|---|---|---|---|---|---|---|
| main.py:613-614 | `re.findall(r'^-\d+$l', chat_config.chat)`: a literal `l` after the end anchor, so the pattern never matches and the options menu shows the stored string | a chat stored as `-1001234567890` gets the heading `-1001234567890` | `^-\d+$` (as at lines 385 and 421), so the heading is the chat's title; this also needs line 614's `get_chat` awaited (next row), or the heading raises instead | not executed | Console.OptionsTitleShowsRawId | Console.ChatLabelShowsTitle |
| main.py:385-386, 421-422, 614 | `bot.get_chat(...)` of the asynchronous bot is not awaited before `.title` is read (at 614 `await` applies to the whole `bot.get_chat(...).title`), so `.title` is read from a coroutine and raises AttributeError | listing chats when any configuration stores a chat as `-1001234567890` | `(await bot.get_chat(...)).title`, the chat's title | not executed | Console.ListLabelAsWrittenRaises | Console.ChatLabelShowsTitle |
| main.py:363-370 | `message.audio[-1]` and `message.video[-1]` index what the bot library delivers as a single Audio or Video object (only `photo` is a list of sizes), so the assignment raises TypeError | storing a template from a message carrying an audio file; the handlers that call it (main.py:324, 342, 501, 536) set no `content_types`, which by the bot library's default admits text messages only, so as written no media reaches this line at all | `message.audio.file_id` and `message.video.file_id`, as for `document`, with handlers that admit media | not executed; relies on the bot library's types and default filter, which the source does not show | Console.AudioOrVideoNotStored | Console.StoredMessageReplays |

=== FILE: console.dfy ===
/**
 * The administrator's side of main.py: naming and storing a newly signed-in
 * account, the `prefix:N` callback data of the inline keyboards, the
 * account-selection step of chat configuration, the labels of configured
 * chats, and the mapping of a received message onto a stored template.
 */
module Console {
  import opened Wrappers
  import opened PyText
  import opened Content

  // ---------------------------------------------------------------------
  // Display name and the account table

  /** What `client.get_me()` returns, as far as naming goes. */
  datatype Me = Me(username: Option<string>, firstName: Option<string>, lastName: Option<string>)

  /** An f-string's rendering of an optional string: `None` prints as "None". */
  function PyStr(v: Option<string>): string
  {
    if v.None? then "None" else v.value
  }

  /** `me.username or f'{me.first_name}{" " + me.last_name if me.last_name else ""}'`. */
  function DisplayName(me: Me): string
  {
    if Truthy(me.username) then me.username.value
    else PyStr(me.firstName) + (if Truthy(me.lastName) then " " + me.lastName.value else "")
  }

  /**
   * A truthy username is the name and the other fields are ignored;
   * otherwise the name starts with the first name, and a last name is
   * appended after one space exactly when it is truthy.
   */
  lemma DisplayNameRule(me: Me, first: Option<string>, last: Option<string>)
    ensures Truthy(me.username) ==> DisplayName(me) == me.username.value
                                    && DisplayName(me.(firstName := first, lastName := last)) == DisplayName(me)
    ensures !Truthy(me.username) && !Truthy(me.lastName) ==> DisplayName(me) == PyStr(me.firstName)
    ensures !Truthy(me.username) && Truthy(me.lastName) ==>
              var f, l := PyStr(me.firstName), me.lastName.value;
              |DisplayName(me)| == |f| + 1 + |l| && DisplayName(me)[..|f|] == f
              && DisplayName(me)[|f|] == ' ' && DisplayName(me)[|f| + 1..] == l
    ensures !Truthy(me.username) && me.firstName.None? && !Truthy(me.lastName) ==> DisplayName(me) == "None"
  {
    if !Truthy(me.username) && Truthy(me.lastName) {
      var f, l := PyStr(me.firstName), me.lastName.value;
      assert DisplayName(me) == f + [' '] + l;
    }
  }

  /** An `Account` row: its primary key, the session name and the display name. */
  datatype AccountRow = AccountRow(id: int, accountId: AccountId, username: string)

  /** `[a.username for a in accounts]`. */
  function Usernames(rows: seq<AccountRow>): (names: seq<string>)
    ensures |names| == |rows|
    ensures forall i :: 0 <= i < |rows| ==> names[i] == rows[i].username
  {
    if rows == [] then [] else Usernames(rows[..|rows| - 1]) + [rows[|rows| - 1].username]
  }

  /** No two rows share a display name. */
  predicate UniqueNames(rows: seq<AccountRow>)
  {
    forall i, j :: 0 <= i < j < |rows| ==> rows[i].username != rows[j].username
  }

  /** No two rows share a primary key. */
  predicate UniqueIds(rows: seq<AccountRow>)
  {
    forall i, j :: 0 <= i < j < |rows| ==> rows[i].id != rows[j].id
  }

  /** Appending a row whose name is not yet stored keeps the stored names duplicate-free. */
  lemma {:induction false} AppendKeepsNamesUnique(rows: seq<AccountRow>, row: AccountRow)
    requires UniqueNames(rows) && row.username !in Usernames(rows)
    ensures UniqueNames(rows + [row])
  {
    var names := Usernames(rows);
    forall i | 0 <= i < |rows|
      ensures rows[i].username != row.username
    {
      assert names[i] == rows[i].username;
    }
  }

  /** The rows left after deleting the one with primary key `id`. */
  function WithoutId(rows: seq<AccountRow>, id: int): (r: seq<AccountRow>)
    ensures forall x :: x in r <==> x in rows && x.id != id
  {
    if rows == [] then []
    else WithoutId(rows[..|rows| - 1], id) + (if rows[|rows| - 1].id == id then [] else [rows[|rows| - 1]])
  }

  /** `session.get(Account, id)`: the row with that primary key, if any. */
  function FindRow(rows: seq<AccountRow>, id: int): (r: Option<AccountRow>)
    ensures r.Some? ==> r.value in rows && r.value.id == id
    ensures r.None? <==> forall x :: x in rows ==> x.id != id
  {
    if rows == [] then None
    else if rows[0].id == id then Some(rows[0])
    else FindRow(rows[1..], id)
  }

  /** With unique primary keys, looking up a stored row's key finds that row. */
  lemma {:induction false} FindRowOfStored(rows: seq<AccountRow>, k: nat)
    requires UniqueIds(rows) && k < |rows|
    ensures FindRow(rows, rows[k].id) == Some(rows[k])
    decreases k
  {
    if k > 0 {
      assert rows[0].id != rows[k].id;
      assert rows[1..][k - 1] == rows[k];
      FindRowOfStored(rows[1..], k - 1);
    }
  }

  /** Deleting rows keeps both uniqueness properties: what is left is a subsequence. */
  lemma {:induction false} WithoutIdKeepsUnique(rows: seq<AccountRow>, id: int)
    requires UniqueNames(rows) && UniqueIds(rows)
    ensures UniqueNames(WithoutId(rows, id)) && UniqueIds(WithoutId(rows, id))
    decreases |rows|
  {
    if rows != [] {
      var init, last := rows[..|rows| - 1], rows[|rows| - 1];
      WithoutIdKeepsUnique(init, id);
      var r := WithoutId(init, id);
      forall x | x in r
        ensures x.username != last.username && x.id != last.id
      {
        var i :| 0 <= i < |init| && init[i] == x;
        assert rows[i] == x;
      }
    }
  }

  /** The `Account` table: its rows in insertion order and the next primary key. */
  class AccountTable {
    var rows: seq<AccountRow>
    var nextId: int

    ghost predicate Valid()
      reads this
    {
      && UniqueNames(rows)
      && UniqueIds(rows)
      && nextId >= 1
      && (forall x :: x in rows ==> 1 <= x.id < nextId)
    }

    constructor ()
      ensures Valid() && rows == [] && nextId == 1
    {
      rows, nextId := [], 1;
    }

    /**
     * The sign-in tail of `send_code_request` and `sign_in_client`: a new
     * account is stored only when its display name is not stored yet.
     */
    method Register(accountId: AccountId, me: Me)
      requires Valid()
      modifies this
      ensures Valid()
      ensures DisplayName(me) in Usernames(old(rows)) ==> rows == old(rows) && nextId == old(nextId)
      ensures DisplayName(me) !in Usernames(old(rows)) ==>
                rows == old(rows) + [AccountRow(old(nextId), accountId, DisplayName(me))] && nextId == old(nextId) + 1
    {
      var accountsUsernames := Usernames(rows);
      var username := DisplayName(me);
      if username !in accountsUsernames {
        var row := AccountRow(nextId, accountId, username);
        AppendKeepsNamesUnique(rows, row);
        rows := rows + [row];
        nextId := nextId + 1;
      }
    }

    /**
     * `remove_account_action` after parsing: `session.get` then
     * `session.delete`, which raises on the None of a missing key.
     */
    method Remove(id: int) returns (removed: bool)
      requires Valid()
      modifies this
      ensures Valid()
      ensures removed <==> FindRow(old(rows), id).Some?
      ensures rows == WithoutId(old(rows), id) && nextId == old(nextId)
    {
      var account := FindRow(rows, id);
      removed := account.Some?;
      WithoutIdKeepsUnique(rows, id);
      rows := WithoutId(rows, id);
    }
  }

  // ---------------------------------------------------------------------
  // Callback data

  /** `f'{prefix}:{id}'`. */
  function CallbackData(prefix: string, id: int): string
  {
    prefix + ":" + IntToString(id)
  }

  /** `int(callback_query.data.split(':')[-1])`; None where `int` raises. */
  function CallbackId(data: string): Option<int>
  {
    ParseInt(LastSegment(data, ':'))
  }

  /** `prefix`, a colon and a digit start at index `i` of `data`. */
  predicate CallbackAt(data: string, prefix: string, i: nat)
  {
    i + |prefix| + 1 < |data| && data[i..i + |prefix|] == prefix
    && data[i + |prefix|] == ':' && IsDigit(data[i + |prefix| + 1])
  }

  /** `re.findall(prefix + r':\d+', data)` is non-empty. */
  predicate MentionsCallback(data: string, prefix: string)
  {
    exists i: nat :: i < |data| && CallbackAt(data, prefix, i)
  }

  /** `str(n)` holds no colon. */
  lemma NoColonInIntToString(n: int)
    ensures ':' !in IntToString(n)
  {
    var s := IntToString(n);
    if n < 0 {
      assert s == "-" + NatToString(-n);
      assert forall i :: 1 <= i < |s| ==> s[i] == NatToString(-n)[i - 1];
    }
  }

  /**
   * The keyboards' round trip: the handler of a button built for primary
   * key `id` accepts its data and parses `id` back, whatever the prefix.
   */
  lemma CallbackRoundTrip(prefix: string, id: int)
    requires id >= 0
    ensures MentionsCallback(CallbackData(prefix, id), prefix)
    ensures CallbackId(CallbackData(prefix, id)) == Some(id)
  {
    var data := CallbackData(prefix, id);
    NoColonInIntToString(id);
    LastSegmentAfterSeparator(prefix, ':', IntToString(id));
    assert data == prefix + [':'] + IntToString(id);
    ParseIntOfIntToString(id);
    assert data[0..|prefix|] == prefix;
    assert data[|prefix| + 1] == IntToString(id)[0];
    assert CallbackAt(data, prefix, 0);
  }

  // ---------------------------------------------------------------------
  // Account selection for a new chat configuration

  /** The accounts still on offer: table rows not yet in `accounts`, in table order. */
  function Unchosen(table: seq<AccountRow>, chosen: seq<Option<AccountRow>>): seq<AccountRow>
  {
    if table == [] then []
    else
      var last := table[|table| - 1];
      Unchosen(table[..|table| - 1], chosen) + (if Some(last) in chosen then [] else [last])
  }

  /** The offer never repeats a chosen account and leaves out no unchosen one. */
  lemma {:induction false} UnchosenExactly(table: seq<AccountRow>, chosen: seq<Option<AccountRow>>)
    ensures forall x :: x in Unchosen(table, chosen) <==> x in table && Some(x) !in chosen
    decreases |table|
  {
    if table != [] {
      var init := table[..|table| - 1];
      UnchosenExactly(init, chosen);
      assert table == init + [table[|table| - 1]];
    }
  }

  /** What the bot shows after an `on_account` button. */
  datatype Screen =
    | Raised                              // `int()` of the callback data raised
    | Offer(accounts: seq<AccountRow>)    // "Escolha uma conta:" with these accounts
    | EnterChat                           // ask for the chat id or title

  /** `on_account`: the chosen accounts afterwards and the screen shown. */
  function AfterChoice(chosen: seq<Option<AccountRow>>, data: string, table: seq<AccountRow>)
    : (seq<Option<AccountRow>>, Screen)
  {
    match CallbackId(data)
    case None => (chosen, Raised)
    case Some(n) =>
      if n == 0 then (chosen, EnterChat)
      else
        var now := chosen + [FindRow(table, n)];
        var offered := Unchosen(table, now);
        (now, if offered == [] then EnterChat else Offer(offered))
  }

  /**
   * The selection step: "Finalizar" (id 0) goes to chat entry and chooses
   * nothing; any other button appends its account, offers exactly the
   * accounts not yet chosen while one is left, and goes to chat entry once
   * none is left.
   */
  lemma SelectionStep(chosen: seq<Option<AccountRow>>, data: string, table: seq<AccountRow>)
    ensures CallbackId(data) == Some(0) ==> AfterChoice(chosen, data, table) == (chosen, EnterChat)
    ensures AfterChoice(chosen, data, table).1.Offer? ==>
              var now := AfterChoice(chosen, data, table).0;
              && |now| == |chosen| + 1 && now[..|chosen|] == chosen
              && (forall x :: x in AfterChoice(chosen, data, table).1.accounts <==> x in table && Some(x) !in now)
    ensures CallbackId(data).Some? && CallbackId(data).value != 0
            && (forall x :: x in table ==> Some(x) in chosen + [FindRow(table, CallbackId(data).value)]) ==>
              AfterChoice(chosen, data, table).1 == EnterChat
    ensures CallbackId(data).Some? && CallbackId(data).value != 0 ==>
              var now := chosen + [FindRow(table, CallbackId(data).value)];
              && AfterChoice(chosen, data, table).0 == now
              && ((exists x :: x in table && Some(x) !in now) ==>
                    AfterChoice(chosen, data, table).1 == Offer(Unchosen(table, now)))
  {
    if CallbackId(data).Some? && CallbackId(data).value != 0 {
      var now := chosen + [FindRow(table, CallbackId(data).value)];
      UnchosenExactly(table, now);
      assert now[..|chosen|] == chosen;
      if forall x :: x in table ==> Some(x) in now {
        UnchosenEmpty(table, now);
      }
    }
  }

  /** Choosing, by its button, the one stored account not yet chosen finishes the selection. */
  lemma LastRemainingFinishes(chosen: seq<Option<AccountRow>>, table: seq<AccountRow>, k: nat)
    requires UniqueIds(table) && k < |table| && table[k].id > 0
    requires forall j :: 0 <= j < |table| && j != k ==> Some(table[j]) in chosen
    ensures AfterChoice(chosen, CallbackData("on_account", table[k].id), table)
            == (chosen + [Some(table[k])], EnterChat)
  {
    CallbackRoundTrip("on_account", table[k].id);
    FindRowOfStored(table, k);
    var now := chosen + [Some(table[k])];
    UnchosenEmpty(table, now);
  }

  /** With every stored account chosen, nothing is left to offer. */
  lemma {:induction false} UnchosenEmpty(table: seq<AccountRow>, chosen: seq<Option<AccountRow>>)
    requires forall x :: x in table ==> Some(x) in chosen
    ensures Unchosen(table, chosen) == []
    decreases |table|
  {
    if table != [] {
      UnchosenEmpty(table[..|table| - 1], chosen);
      assert table[|table| - 1] in table;
    }
  }

  /** The global `accounts` list of the configuration dialogue. */
  class ChatSetup {
    var chosen: seq<Option<AccountRow>>

    constructor ()
      ensures chosen == []
    {
      chosen := [];
    }

    /** `configure_chat` starts the dialogue with `accounts = []`. */
    method Reset()
      modifies this
      ensures chosen == []
    {
      chosen := [];
    }

    /** `on_account`. */
    method OnAccount(data: string, table: seq<AccountRow>) returns (screen: Screen)
      modifies this
      ensures (chosen, screen) == AfterChoice(old(chosen), data, table)
    {
      var accountId := ParseInt(LastSegment(data, ':'));
      if accountId.None? {
        return Raised;
      }
      var offered: seq<AccountRow> := [];
      if accountId.value != 0 {
        var account := FindRow(table, accountId.value);
        chosen := chosen + [account];
        offered := OfferList(table, chosen);
      }
      if accountId.value != 0 && offered != [] {
        screen := Offer(offered);
      } else {
        screen := EnterChat;
      }
    }
  }

  /** The keyboard loop of `on_account`: every stored account not in `accounts`, in table order. */
  method OfferList(table: seq<AccountRow>, chosen: seq<Option<AccountRow>>) returns (offered: seq<AccountRow>)
    ensures offered == Unchosen(table, chosen)
  {
    offered := [];
    for i := 0 to |table|
      invariant offered == Unchosen(table[..i], chosen)
    {
      assert table[..i + 1][..i] == table[..i];
      if Some(table[i]) !in chosen {
        offered := offered + [table[i]];
      }
    }
    assert table[..|table|] == table;
  }

  // ---------------------------------------------------------------------
  // Chat labels

  /** Why building a label raised. */
  datatype LabelError = CoroutineHasNoTitle | ChatNotFound

  /**
   * The label of a configured chat in `remove_from_chat` and `show_chats`,
   * as written: for a numeric chat the un-awaited `bot.get_chat(...)` is a
   * coroutine, and reading `.title` from it raises.
   */
  function ListLabelAsWritten(chat: string): (r: Result<string, LabelError>)
  {
    if IsNumericChatId(chat) then Failure(CoroutineHasNoTitle) else Success(chat)
  }

  /** Every chat configured by its (negative) numeric id breaks the listing. */
  lemma ListLabelAsWrittenRaises(n: int)
    requires n < 0
    ensures ListLabelAsWritten(IntToString(n)) == Failure(CoroutineHasNoTitle)
  {
    NumericChatIdOfIntToString(n);
  }

  /**
   * The label intended: the title Telegram reports for a numeric chat,
   * (`titles(id)`, None when `get_chat` raises), otherwise the stored string.
   */
  function ChatLabel(chat: string, titles: int -> Option<string>): (r: Result<string, LabelError>)
  {
    if IsNumericChatId(chat) then
      match titles(NumericChatValue(chat))
      case None => Failure(ChatNotFound)
      case Some(title) => Success(title)
    else Success(chat)
  }

  /** A chat stored as `str(id)` of a negative id is shown by its title; a title or username by itself. */
  lemma ChatLabelShowsTitle(n: int, titles: int -> Option<string>)
    requires n < 0 && titles(n).Some?
    ensures ChatLabel(IntToString(n), titles) == Success(titles(n).value)
  {
    NumericChatValueOfIntToString(n);
  }

  /** A stored chat string that is not a numeric id is its own label, as written and as intended. */
  lemma ChatLabelOfName(chat: string, titles: int -> Option<string>)
    requires !IsNumericChatId(chat)
    ensures ChatLabel(chat, titles) == Success(chat) == ListLabelAsWritten(chat)
    ensures OptionsTitleAsWritten(chat) == chat
  {
  }

  /** The heading of `send_chat_options`, as written: its pattern `^-\d+$l` never matches. */
  function OptionsTitleAsWritten(chat: string): string
  {
    // The first branch is dead code (`EndThenLNeverMatches`); it stands for
    // line 614, which would read `.title` of an un-awaited coroutine and raise.
    if MatchesEndThenL(chat) then "" else chat
  }

  /** The options heading of a chat configured by numeric id shows the raw id, not the title. */
  lemma OptionsTitleShowsRawId(n: int, titles: int -> Option<string>)
    requires n < 0 && titles(n).Some? && titles(n).value != IntToString(n)
    ensures OptionsTitleAsWritten(IntToString(n)) == IntToString(n)
    ensures ChatLabel(IntToString(n), titles) != Success(OptionsTitleAsWritten(IntToString(n)))
  {
    EndThenLNeverMatches(IntToString(n));
    ChatLabelShowsTitle(n, titles);
  }

  // ---------------------------------------------------------------------
  // Storing a received message as a template

  /**
   * A received message: text and caption, the file ids of the photo's sizes
   * (smallest first) and the file id of its audio, document or video.
   */
  datatype Incoming = Incoming(
    text: Option<string>,
    caption: Option<string>,
    photo: Option<seq<string>>,
    audio: Option<string>,
    document: Option<string>,
    video: Option<string>)

  /** Why `add_message_model` raised. */
  datatype StoreError = EmptyPhotoList | NotSubscriptable

  /**
   * `add_message_model` as written: `message.photo[-1]` takes the largest
   * size, but `message.audio[-1]` and `message.video[-1]` index a single
   * Audio or Video object, which raises; fields are evaluated in order.
   */
  function AddMessageModelAsWritten(m: Incoming): (r: Result<Template, StoreError>)
  {
    if m.photo.Some? && m.photo.value == [] then Failure(EmptyPhotoList)
    else if m.audio.Some? then Failure(NotSubscriptable)
    else if m.video.Some? then Failure(NotSubscriptable)
    else
      var photo := if m.photo.Some? then Some(m.photo.value[|m.photo.value| - 1]) else None;
      Success(Template(m.text, m.caption, photo, None, m.document, None))
  }

  /** An audio or video message can never be stored as a template. */
  lemma AudioOrVideoNotStored(m: Incoming)
    requires m.photo.None? || m.photo.value != []
    requires m.audio.Some? || m.video.Some?
    ensures AddMessageModelAsWritten(m) == Failure(NotSubscriptable)
  {
  }

  /** `add_message_model` as intended: each media kind's file id in its own slot. */
  function AddMessageModel(m: Incoming): (r: Result<Template, StoreError>)
  {
    if m.photo.Some? && m.photo.value == [] then Failure(EmptyPhotoList)
    else
      var photo := if m.photo.Some? then Some(m.photo.value[|m.photo.value| - 1]) else None;
      Success(Template(m.text, m.caption, photo, m.audio, m.document, m.video))
  }

  /**
   * A stored message is replayed as received: its text alone when the text
   * is truthy, otherwise its largest photo, audio, document and video, each
   * present one once and in that order, all with the message's caption;
   * where the as-written mapping stores anything, it stores the same template.
   */
  lemma StoredMessageReplays(m: Incoming)
    requires AddMessageModel(m).Success?
    ensures var t := AddMessageModel(m).value;
            var photo := if m.photo.Some? then Some(m.photo.value[|m.photo.value| - 1]) else None;
            && Slots(t) == [photo, m.audio, m.document, m.video]
            && (Truthy(m.text) ==> Outgoing(t) == [Text(m.text.value)])
            && (!Truthy(m.text) ==> Outgoing(t) == MediaPayloads([photo, m.audio, m.document, m.video], m.caption))
            && (AddMessageModelAsWritten(m).Success? ==> AddMessageModelAsWritten(m) == AddMessageModel(m))
  {
  }
}

=== FILE: content.dfy ===
/**
 * What both delivery paths share: a stored message template, Python's
 * truthiness of its optional fields, the text-or-media rule that turns a
 * template into outgoing payloads, the send log, the network seen as
 * oracles, and `random.choice`.
 */
module Content {
  import opened Wrappers

  /** The `account_id` string that names a Telethon session. */
  type AccountId = string

  /** A user or chat entity returned by Telethon; only its id is ever inspected. */
  datatype Peer = Peer(id: int, accessHash: int)

  /** A WelcomeMessage or MemberLeftMessage row: text, caption and four media file ids. */
  datatype Template = Template(
    text: Option<string>,
    caption: Option<string>,
    photo: Option<string>,
    audio: Option<string>,
    document: Option<string>,
    video: Option<string>)

  /** Python truthiness of an optional string: neither None nor empty. */
  predicate Truthy(v: Option<string>)
  {
    v.Some? && v.value != ""
  }

  /** The `medias` list, in its fixed order photo, audio, document, video. */
  function Slots(t: Template): (s: seq<Option<string>>)
    ensures |s| == 4
  {
    [t.photo, t.audio, t.document, t.video]
  }

  datatype Payload = Text(body: string) | File(fileId: string, caption: Option<string>)

  /** One entry of the output log: a send through the session of `account`. */
  datatype Action = Send(account: AccountId, to: Peer, payload: Payload)

  /** Number of truthy slots in `slots`. */
  function CountTruthy(slots: seq<Option<string>>): nat
  {
    if slots == [] then 0
    else CountTruthy(slots[..|slots| - 1]) + (if Truthy(slots[|slots| - 1]) then 1 else 0)
  }

  /** One file per truthy slot, in slot order, each with the template's caption. */
  function MediaPayloads(slots: seq<Option<string>>, caption: Option<string>): (r: seq<Payload>)
    ensures |r| == CountTruthy(slots)
    ensures forall k :: 0 <= k < |r| ==> r[k].File? && r[k].caption == caption
  {
    if slots == [] then []
    else
      var last := slots[|slots| - 1];
      MediaPayloads(slots[..|slots| - 1], caption) + (if Truthy(last) then [File(last.value, caption)] else [])
  }

  /** What a template sends: its text alone when the text is truthy, otherwise its media. */
  function Outgoing(t: Template): seq<Payload>
  {
    if Truthy(t.text) then [Text(t.text.value)] else MediaPayloads(Slots(t), t.caption)
  }

  /** Every payload addressed to `to` through the session of `account`, in order. */
  function Addressed(account: AccountId, to: Peer, ps: seq<Payload>): (r: seq<Action>)
    ensures |r| == |ps|
  {
    if ps == [] then []
    else Addressed(account, to, ps[..|ps| - 1]) + [Send(account, to, ps[|ps| - 1])]
  }

  /** The `k`-th action carries the `k`-th payload, to `to`, through `account`. */
  lemma {:induction false} AddressedAt(account: AccountId, to: Peer, ps: seq<Payload>, k: nat)
    requires k < |ps|
    ensures Addressed(account, to, ps)[k] == Send(account, to, ps[k])
    decreases |ps|
  {
    if k < |ps| - 1 {
      AddressedAt(account, to, ps[..|ps| - 1], k);
    }
  }

  lemma ConcatAssoc<T>(a: seq<T>, b: seq<T>, c: seq<T>)
    ensures a + (b + c) == (a + b) + c
  {
  }

  /** Addressing distributes over concatenation of payload lists. */
  lemma {:induction false} AddressedAppend(account: AccountId, to: Peer, ps: seq<Payload>, qs: seq<Payload>)
    ensures Addressed(account, to, ps + qs) == Addressed(account, to, ps) + Addressed(account, to, qs)
    decreases |qs|
  {
    if qs == [] {
      assert ps + qs == ps;
    } else {
      var init := qs[..|qs| - 1];
      assert (ps + qs)[..|ps + qs| - 1] == ps + init;
      AddressedAppend(account, to, ps, init);
      ConcatAssoc(Addressed(account, to, ps), Addressed(account, to, init), [Send(account, to, qs[|qs| - 1])]);
    }
  }

  /** A truthy text is sent once, as the only payload; the media slots are ignored. */
  lemma TextSentAlone(t: Template)
    requires Truthy(t.text)
    ensures Outgoing(t) == [Text(t.text.value)]
    ensures forall u: Template :: u.text == t.text ==> Outgoing(u) == Outgoing(t)
  {
  }

  /**
   * Without text, the truthy slot at index `j` is sent exactly at the
   * position given by the number of truthy slots before it; as there are as
   * many payloads as truthy slots, each populated slot is sent exactly once
   * and the slot order is kept.
   */
  lemma {:induction false} MediaPayloadAt(slots: seq<Option<string>>, caption: Option<string>, j: nat)
    requires j < |slots| && Truthy(slots[j])
    ensures CountTruthy(slots[..j]) < |MediaPayloads(slots, caption)|
    ensures MediaPayloads(slots, caption)[CountTruthy(slots[..j])] == File(slots[j].value, caption)
    decreases |slots|
  {
    var n := |slots|;
    var init := slots[..n - 1];
    if j == n - 1 {
      assert slots[..j] == init;
    } else {
      assert init[..j] == slots[..j];
      MediaPayloadAt(init, caption, j);
      CountTruthyMonotone(init, j);
    }
  }

  lemma {:induction false} CountTruthyMonotone(slots: seq<Option<string>>, j: nat)
    requires j <= |slots|
    ensures CountTruthy(slots[..j]) <= CountTruthy(slots)
    decreases |slots|
  {
    if j < |slots| {
      assert slots[..|slots| - 1][..j] == slots[..j];
      CountTruthyMonotone(slots[..|slots| - 1], j);
    } else {
      assert slots[..j] == slots;
    }
  }

  /** A template with no truthy text and no truthy slot sends nothing. */
  lemma EmptyTemplateSendsNothing(t: Template)
    requires !Truthy(t.text)
    requires forall k :: 0 <= k < 4 ==> !Truthy(Slots(t)[k])
    ensures Outgoing(t) == []
  {
    NoTruthySlotNoMedia(Slots(t), t.caption);
  }

  lemma {:induction false} NoTruthySlotNoMedia(slots: seq<Option<string>>, caption: Option<string>)
    requires forall k :: 0 <= k < |slots| ==> !Truthy(slots[k])
    ensures MediaPayloads(slots, caption) == []
    decreases |slots|
  {
    if slots != [] {
      NoTruthySlotNoMedia(slots[..|slots| - 1], caption);
    }
  }

  /**
   * `random.choice(xs)`: the caller's `pick` stands for the random draw. Any
   * element of `xs` can be drawn; on an empty list `choice` raises, which
   * callers model before calling.
   */
  function Choose<T>(xs: seq<T>, pick: nat): (r: T)
    requires xs != []
    ensures r in xs
    ensures pick < |xs| ==> r == xs[pick]
  {
    xs[pick % |xs|]
  }

  /**
   * The Telegram network as seen through one account's session:
   * `entity(a, id)` is `get_entity(id)` (None when it raises) and
   * `participants(a, chat)` is `get_participants(chat)` (None when it raises).
   */
  datatype Network = Network(
    entity: (AccountId, int) -> Option<Peer>,
    participants: (AccountId, int) -> Option<seq<Peer>>)
  /** One more slot adds its file, addressed, when truthy, and nothing otherwise. */
  lemma MediaStep(account: AccountId, user: Peer, medias: seq<Option<string>>, caption: Option<string>, i: nat)
    requires i < |medias|
    ensures Addressed(account, user, MediaPayloads(medias[..i + 1], caption))
         == Addressed(account, user, MediaPayloads(medias[..i], caption))
            + (if Truthy(medias[i]) then [Send(account, user, File(medias[i].value, caption))] else [])
  {
    var step := if Truthy(medias[i]) then [File(medias[i].value, caption)] else [];
    assert medias[..i + 1][..i] == medias[..i];
    assert MediaPayloads(medias[..i + 1], caption) == MediaPayloads(medias[..i], caption) + step;
    AddressedAppend(account, user, MediaPayloads(medias[..i], caption), step);
  }


  /**
   * The sending side of a Telethon session, seen as the log of what it has
   * sent: `send_message` for a text, `send_file` for each media file.
   */
  class Outbox {
    var log: seq<Action>

    constructor ()
      ensures log == []
    {
      log := [];
    }

    /** Sends the text, or every truthy media slot in order, to `user`. */
    method SendModel(account: AccountId, user: Peer, model: Template)
      modifies this
      ensures log == old(log) + Addressed(account, user, Outgoing(model))
    {
      var medias := Slots(model);
      if Truthy(model.text) {
        log := log + [Send(account, user, Text(model.text.value))];
      } else {
        for i := 0 to |medias|
          invariant log == old(log) + Addressed(account, user, MediaPayloads(medias[..i], model.caption))
        {
          MediaStep(account, user, medias, model.caption, i);
          ConcatAssoc(old(log), Addressed(account, user, MediaPayloads(medias[..i], model.caption)),
                      if Truthy(medias[i]) then [Send(account, user, File(medias[i].value, model.caption))] else []);
          if Truthy(medias[i]) {
            log := log + [Send(account, user, File(medias[i].value, model.caption))];
          }
        }
        assert medias[..|medias|] == medias;
      }
    }

  }
}

=== FILE: dispatcher.dfy ===
/**
 * The queue dispatcher of clients.py: one pass of its `while True` loop.
 * A pass opens a Telethon session for every stored account that has none
 * yet, then walks every queued Message row: it draws a session at random,
 * picks the welcome or member-left template, resolves the target user
 * (direct `get_entity` first, a scan of the chat's participants only when
 * that raises) and sends the template's text or all of its media.
 * Rows are only read; nothing is deleted, so the next pass sees them again.
 */
module Dispatcher {
  import opened Wrappers
  import opened Content

  /** A queued Message row, as clients.py reads it (`int(...)` already applied to the ids). */
  datatype QueuedMessage = QueuedMessage(
    userId: int,
    chatId: Option<int>,
    welcomeMessageId: Option<int>,
    memberLeftMessageId: Option<int>)

  /** The WelcomeMessage and MemberLeftMessage tables, by primary key. */
  datatype TemplateStore = TemplateStore(welcome: map<int, Template>, memberLeft: map<int, Template>)

  /**
   * Exceptions that escape a row and, since nothing catches them, end the pass:
   * `choice` on no sessions, a template row that is not there, `int(None)` on a
   * missing chat id, and `get_entity`/`get_participants` on the chat raising.
   */
  datatype RowError = EmptyPool | MissingTemplate | NoChatId | ChatUnreachable | ParticipantsUnavailable

  /**
   * What one row does: the session drawn, the target found (if any) and the
   * template selected, or the exception it raised.
   */
  datatype RowResult = Done(account: AccountId, target: Option<Peer>, template: Template) | Crash(failure: RowError)

  datatype PassResult = PassResult(sends: seq<Action>, crash: Option<RowError>)

  /** Python truthiness of an optional integer foreign key. */
  predicate IdTruthy(id: Option<int>)
  {
    id.Some? && id.value != 0
  }

  predicate Distinct<T(==)>(s: seq<T>)
  {
    forall i, j :: 0 <= i < j < |s| ==> s[i] != s[j]
  }

  /** The session order after the account loop: each account without a session is appended once. */
  function Opened(order: seq<AccountId>, accounts: seq<AccountId>): (r: seq<AccountId>)
  {
    if accounts == [] then order
    else
      var prior := Opened(order, accounts[..|accounts| - 1]);
      var a := accounts[|accounts| - 1];
      if a in prior then prior else prior + [a]
  }

  /**
   * After the account loop every stored account has a session, the only other
   * sessions are those already open (a deleted account's session is never
   * closed), sessions already open keep their place, and no account appears twice.
   */
  lemma {:induction false} OpenedKeepsAndCovers(order: seq<AccountId>, accounts: seq<AccountId>)
    requires Distinct(order)
    ensures Distinct(Opened(order, accounts))
    ensures forall a :: a in Opened(order, accounts) <==> a in order || a in accounts
    ensures |order| <= |Opened(order, accounts)| && Opened(order, accounts)[..|order|] == order
    decreases |accounts|
  {
    if accounts != [] {
      var init := accounts[..|accounts| - 1];
      OpenedKeepsAndCovers(order, init);
      assert forall a :: a in accounts <==> a in init || a == accounts[|accounts| - 1];
    }
  }

  /** A second account loop over the same accounts opens nothing new. */
  lemma {:induction false} OpenedIdempotent(order: seq<AccountId>, accounts: seq<AccountId>)
    requires Distinct(order)
    ensures Opened(Opened(order, accounts), accounts) == Opened(order, accounts)
  {
    OpenedKeepsAndCovers(order, accounts);
    OpenedOfCovered(Opened(order, accounts), accounts);
  }

  lemma {:induction false} OpenedOfCovered(order: seq<AccountId>, accounts: seq<AccountId>)
    requires forall a :: a in accounts ==> a in order
    ensures Opened(order, accounts) == order
    decreases |accounts|
  {
    if accounts != [] {
      OpenedOfCovered(order, accounts[..|accounts| - 1]);
    }
  }

  /** The template of a row: welcome when `welcome_message_id` is truthy, member-left otherwise. */
  function SelectTemplate(row: QueuedMessage, store: TemplateStore): Option<Template>
  {
    if IdTruthy(row.welcomeMessageId) then Lookup(store.welcome, row.welcomeMessageId.value)
    else if row.memberLeftMessageId.None? then None
    else Lookup(store.memberLeft, row.memberLeftMessageId.value)
  }

  /** The first member whose id is `userId`: the `for ... break` scan. */
  function FirstMatch(members: seq<Peer>, userId: int): (r: Option<Peer>)
    ensures r.Some? ==> r.value in members && r.value.id == userId
    ensures r.None? <==> forall k :: 0 <= k < |members| ==> members[k].id != userId
  {
    if members == [] then None
    else if members[0].id == userId then Some(members[0])
    else FirstMatch(members[1..], userId)
  }

  /** The scan stops at the first member with the wanted id: the one with no match before it. */
  lemma {:induction false} FirstMatchIsFirst(members: seq<Peer>, userId: int, k: nat)
    requires k < |members| && members[k].id == userId
    requires forall h :: 0 <= h < k ==> members[h].id != userId
    ensures FirstMatch(members, userId) == Some(members[k])
    decreases k
  {
    if k > 0 {
      FirstMatchIsFirst(members[1..], userId, k - 1);
    }
  }

  /**
   * Target resolution through the session of `account`: direct lookup first;
   * only when it raises is the chat looked up and its participants scanned.
   */
  function Resolve(account: AccountId, row: QueuedMessage, net: Network): Result<Option<Peer>, RowError>
  {
    match net.entity(account, row.userId)
    case Some(p) => Success(Some(p))
    case None =>
      if row.chatId.None? then Failure(NoChatId)
      else
        match net.entity(account, row.chatId.value)
        case None => Failure(ChatUnreachable)
        case Some(chat) =>
          match net.participants(account, chat.id)
          case None => Failure(ParticipantsUnavailable)
          case Some(members) => Success(FirstMatch(members, row.userId))
  }

  /** One row of the message loop, drawing the session `Choose(pool, pick)`. */
  function Deliver(pool: seq<AccountId>, pick: nat, row: QueuedMessage, store: TemplateStore, net: Network): RowResult
  {
    if pool == [] then Crash(EmptyPool)
    else
      var account := Choose(pool, pick);
      match SelectTemplate(row, store)
      case None => Crash(MissingTemplate)
      case Some(t) =>
        match Resolve(account, row, net)
        case Failure(f) => Crash(f)
        case Success(user) => Done(account, user, t)
  }

  function SendsOf(r: RowResult): seq<Action>
  {
    if r.Done? && r.target.Some? then Addressed(r.account, r.target.value, Outgoing(r.template)) else []
  }

  /** The message loop after one more row: its sends are added, or its exception ends the loop. */
  function Next(prior: PassResult, r: RowResult): PassResult
  {
    if prior.crash.Some? then prior
    else if r.Crash? then PassResult(prior.sends, Some(r.failure))
    else PassResult(prior.sends + SendsOf(r), None)
  }

  /** The message loop over `rows`, one pick per row, stopping at the first exception. */
  function Pass(pool: seq<AccountId>, rows: seq<QueuedMessage>, picks: seq<nat>, store: TemplateStore, net: Network): PassResult
    requires |picks| == |rows|
  {
    if rows == [] then PassResult([], None)
    else
      var n := |rows|;
      Next(Pass(pool, rows[..n - 1], picks[..n - 1], store, net), Deliver(pool, picks[n - 1], rows[n - 1], store, net))
  }

  /** The message loop after row `i`, from the loop before it and the row's own result. */
  lemma PassStep(pool: seq<AccountId>, rows: seq<QueuedMessage>, picks: seq<nat>, store: TemplateStore, net: Network,
                 i: nat, r: RowResult)
    requires |picks| == |rows| && i < |rows|
    requires r == Deliver(pool, picks[i], rows[i], store, net)
    ensures Pass(pool, rows[..i + 1], picks[..i + 1], store, net) == Next(Pass(pool, rows[..i], picks[..i], store, net), r)
  {
    assert rows[..i + 1][..i] == rows[..i] && picks[..i + 1][..i] == picks[..i];
  }

  /** Once a row has raised, later rows change nothing: the exception has left the loop. */
  lemma {:induction false} CrashEndsPass(pool: seq<AccountId>, rows: seq<QueuedMessage>, picks: seq<nat>,
                                         store: TemplateStore, net: Network, i: nat)
    requires |picks| == |rows| && i <= |rows|
    requires Pass(pool, rows[..i], picks[..i], store, net).crash.Some?
    ensures Pass(pool, rows, picks, store, net) == Pass(pool, rows[..i], picks[..i], store, net)
    decreases |rows|
  {
    var n := |rows|;
    if i < n {
      assert rows[..n - 1][..i] == rows[..i];
      assert picks[..n - 1][..i] == picks[..i];
      CrashEndsPass(pool, rows[..n - 1], picks[..n - 1], store, net, i);
    } else {
      assert rows[..i] == rows && picks[..i] == picks;
    }
  }

  /**
   * Rows are only read, never deleted or changed: the next pass, after an
   * account loop over the same accounts, opens nothing and meets the same
   * rows with the same session pool, so with the same draws it sends the same again.
   * Only a pass that raised nothing has a next pass: an exception ends `main`.
   */
  lemma NextPassRepeats(order: seq<AccountId>, accounts: seq<AccountId>, rows: seq<QueuedMessage>, picks: seq<nat>,
                        store: TemplateStore, net: Network)
    requires Distinct(order) && |picks| == |rows|
    requires Pass(Opened(order, accounts), rows, picks, store, net).crash.None?
    ensures var pool := Opened(order, accounts);
            Opened(pool, accounts) == pool
            && Pass(Opened(pool, accounts), rows, picks, store, net) == Pass(pool, rows, picks, store, net)
  {
    OpenedIdempotent(order, accounts);
  }

  /** With no session open, `choice` raises on the first row and nothing is sent. */
  lemma EmptyPoolSendsNothing(rows: seq<QueuedMessage>, picks: seq<nat>, store: TemplateStore, net: Network)
    requires |picks| == |rows| && rows != []
    ensures Pass([], rows, picks, store, net) == PassResult([], Some(EmptyPool))
  {
    assert rows[..1][..0] == [] && picks[..1][..0] == [];
    assert Pass([], rows[..1], picks[..1], store, net) == PassResult([], Some(EmptyPool));
    CrashEndsPass([], rows, picks, store, net, 1);
  }

  /**
   * A truthy `welcome_message_id` selects the welcome template: a delivered
   * row carries the welcome row it names, a missing welcome row raises, and
   * the member-left table is never read.
   */
  lemma WelcomeTemplateWins(pool: seq<AccountId>, pick: nat, row: QueuedMessage, store: TemplateStore,
                            other: map<int, Template>, net: Network)
    requires IdTruthy(row.welcomeMessageId)
    ensures Deliver(pool, pick, row, store, net) == Deliver(pool, pick, row, store.(memberLeft := other), net)
    ensures Deliver(pool, pick, row, store, net).Done? ==>
              row.welcomeMessageId.value in store.welcome
              && Deliver(pool, pick, row, store, net).template == store.welcome[row.welcomeMessageId.value]
    ensures pool != [] && row.welcomeMessageId.value in store.welcome
            && Resolve(Choose(pool, pick), row, net).Success? ==>
              Deliver(pool, pick, row, store, net)
              == Done(Choose(pool, pick), Resolve(Choose(pool, pick), row, net).value, store.welcome[row.welcomeMessageId.value])
    ensures pool != [] && row.welcomeMessageId.value !in store.welcome ==>
              Deliver(pool, pick, row, store, net) == Crash(MissingTemplate)
  {
  }

  /**
   * A falsy `welcome_message_id` selects the member-left template: a
   * delivered row carries the member-left row it names, a missing id or row
   * raises, and the welcome table is never read.
   */
  lemma MemberLeftTemplateOtherwise(pool: seq<AccountId>, pick: nat, row: QueuedMessage, store: TemplateStore,
                                    other: map<int, Template>, net: Network)
    requires !IdTruthy(row.welcomeMessageId)
    ensures Deliver(pool, pick, row, store, net) == Deliver(pool, pick, row, store.(welcome := other), net)
    ensures Deliver(pool, pick, row, store, net).Done? ==>
              row.memberLeftMessageId.Some? && row.memberLeftMessageId.value in store.memberLeft
              && Deliver(pool, pick, row, store, net).template == store.memberLeft[row.memberLeftMessageId.value]
    ensures pool != [] && row.memberLeftMessageId.Some? && row.memberLeftMessageId.value in store.memberLeft
            && Resolve(Choose(pool, pick), row, net).Success? ==>
              Deliver(pool, pick, row, store, net)
              == Done(Choose(pool, pick), Resolve(Choose(pool, pick), row, net).value,
                      store.memberLeft[row.memberLeftMessageId.value])
    ensures pool != [] && (row.memberLeftMessageId.None? || row.memberLeftMessageId.value !in store.memberLeft) ==>
              Deliver(pool, pick, row, store, net) == Crash(MissingTemplate)
  {
  }

  /**
   * When direct lookup succeeds, it is the target and the participant oracle
   * is never consulted; when it raises, the first member with the row's user
   * id is the target, and with no such member nothing is sent.
   */
  lemma ResolutionOrder(account: AccountId, row: QueuedMessage, net: Network,
                        other: (AccountId, int) -> Option<seq<Peer>>)
    ensures net.entity(account, row.userId).Some? ==>
              Resolve(account, row, net) == Success(net.entity(account, row.userId))
              && Resolve(account, row, net) == Resolve(account, row, net.(participants := other))
    ensures net.entity(account, row.userId).None? && row.chatId.Some?
            && net.entity(account, row.chatId.value).Some?
            && net.participants(account, net.entity(account, row.chatId.value).value.id).Some? ==>
              var members := net.participants(account, net.entity(account, row.chatId.value).value.id).value;
              Resolve(account, row, net) == Success(FirstMatch(members, row.userId))
  {
  }

  /** A row whose user is found by neither route is skipped: no send, no exception. */
  lemma UnfoundUserSendsNothing(pool: seq<AccountId>, pick: nat, row: QueuedMessage, store: TemplateStore, net: Network)
    requires pool != [] && SelectTemplate(row, store).Some?
    requires Resolve(Choose(pool, pick), row, net) == Success(None)
    ensures Deliver(pool, pick, row, store, net).Done?
    ensures SendsOf(Deliver(pool, pick, row, store, net)) == []
  {
  }

  /** Every send of a row goes through the drawn session to the resolved user. */
  lemma RowSendsToTarget(pool: seq<AccountId>, pick: nat, row: QueuedMessage, store: TemplateStore, net: Network)
    requires Deliver(pool, pick, row, store, net).Done?
    ensures var r := Deliver(pool, pick, row, store, net);
            r.account == Choose(pool, pick)
            && (r.target.None? ==> SendsOf(r) == [])
            && (r.target.Some? ==> |SendsOf(r)| == |Outgoing(r.template)|)
            && forall k :: 0 <= k < |SendsOf(r)| ==> SendsOf(r)[k] == Send(Choose(pool, pick), r.target.value, Outgoing(r.template)[k])
  {
    var r := Deliver(pool, pick, row, store, net);
    if r.target.Some? {
      forall k | 0 <= k < |SendsOf(r)|
        ensures SendsOf(r)[k] == Send(Choose(pool, pick), r.target.value, Outgoing(r.template)[k])
      {
        AddressedAt(r.account, r.target.value, Outgoing(r.template), k);
      }
    }
  }

  /** A Telethon session object; only the account it was started for matters here. */
  class Session {
    const account: AccountId

    constructor (account: AccountId)
      ensures this.account == account
    {
      this.account := account;
    }
  }

  /** The state of `main`: the `clients` dict, its keys in insertion order, and what has been sent. */
  class Dispatcher {
    var clients: map<AccountId, Session>
    var order: seq<AccountId>
    const outbox: Outbox

    ghost predicate Valid()
      reads this`clients, this`order
    {
      && Distinct(order)
      && (forall a :: a in clients <==> a in order)
      && (forall a :: a in clients ==> clients[a].account == a)
    }

    constructor ()
      ensures Valid() && clients == map[] && order == []
      ensures fresh(outbox) && outbox.log == []
    {
      clients, order := map[], [];
      outbox := new Outbox();
    }

    /** The account loop: start a session for each account that has none. */
    method OpenMissing(accounts: seq<AccountId>)
      requires Valid()
      modifies this
      ensures Valid()
      ensures order == Opened(old(order), accounts)
      ensures forall a :: a in old(clients) ==> a in clients && clients[a] == old(clients)[a]
      ensures forall a :: a in clients && a !in old(clients) ==> fresh(clients[a])
    {
      for i := 0 to |accounts|
        invariant Valid()
        invariant order == Opened(old(order), accounts[..i])
        invariant forall a :: a in old(clients) ==> a in clients && clients[a] == old(clients)[a]
        invariant forall a :: a in clients && a !in old(clients) ==> fresh(clients[a])
      {
        assert accounts[..i + 1][..i] == accounts[..i];
        var a := accounts[i];
        if a !in clients {
          var session := new Session(a);
          clients := clients[a := session];
          order := order + [a];
        }
      }
      assert accounts[..|accounts|] == accounts;
    }

    /** The body of the message loop for one row. */
    method ProcessRow(row: QueuedMessage, pick: nat, store: TemplateStore, net: Network) returns (result: RowResult)
      requires Valid()
      modifies outbox
      ensures result == Deliver(order, pick, row, store, net)
      ensures outbox.log == old(outbox.log) + SendsOf(result)
    {
      if order == [] {
        return Crash(EmptyPool);
      }
      var account := Choose(order, pick);
      var client := clients[account];
      assert client.account == account;
      var model: Template;
      if IdTruthy(row.welcomeMessageId) {
        if row.welcomeMessageId.value !in store.welcome {
          return Crash(MissingTemplate);
        }
        model := store.welcome[row.welcomeMessageId.value];
      } else {
        if row.memberLeftMessageId.None? || row.memberLeftMessageId.value !in store.memberLeft {
          return Crash(MissingTemplate);
        }
        model := store.memberLeft[row.memberLeftMessageId.value];
      }
      assert SelectTemplate(row, store) == Some(model);
      var user := ResolveTarget(client, row, net);
      if user.Failure? {
        return Crash(user.error);
      }
      if user.value.Some? {
        outbox.SendModel(account, user.value.value, model);
      }
      return Done(account, user.value, model);
    }

    /** One iteration of `while True`: the account loop, then the message loop. */
    method RunPass(accounts: seq<AccountId>, rows: seq<QueuedMessage>, picks: seq<nat>, store: TemplateStore, net: Network)
      returns (crash: Option<RowError>)
      requires Valid() && |picks| == |rows|
      modifies this, outbox
      ensures Valid()
      ensures order == Opened(old(order), accounts)
      ensures forall a :: a in old(clients) ==> a in clients && clients[a] == old(clients)[a]
      ensures outbox.log == old(outbox.log) + Pass(order, rows, picks, store, net).sends
      ensures crash == Pass(order, rows, picks, store, net).crash
    {
      OpenMissing(accounts);
      crash := ProcessRows(rows, picks, store, net);
    }

    /** The message loop: every row in order, until one raises. */
    method ProcessRows(rows: seq<QueuedMessage>, picks: seq<nat>, store: TemplateStore, net: Network)
      returns (crash: Option<RowError>)
      requires Valid() && |picks| == |rows|
      modifies outbox
      ensures outbox.log == old(outbox.log) + Pass(order, rows, picks, store, net).sends
      ensures crash == Pass(order, rows, picks, store, net).crash
    {
      for i := 0 to |rows|
        invariant Pass(order, rows[..i], picks[..i], store, net).crash.None?
        invariant outbox.log == old(outbox.log) + Pass(order, rows[..i], picks[..i], store, net).sends
      {
        var result := ProcessRow(rows[i], picks[i], store, net);
        PassStep(order, rows, picks, store, net, i, result);
        ConcatAssoc(old(outbox.log), Pass(order, rows[..i], picks[..i], store, net).sends, SendsOf(result));
        if result.Crash? {
          CrashEndsPass(order, rows, picks, store, net, i + 1);
          return Some(result.failure);
        }
      }
      assert rows[..|rows|] == rows && picks[..|picks|] == picks;
      return None;
    }
  }

  /** The `try`/`except` block: direct lookup, and the participant scan when it raises. */
  method ResolveTarget(client: Session, row: QueuedMessage, net: Network) returns (user: Result<Option<Peer>, RowError>)
    ensures user == Resolve(client.account, row, net)
  {
    var direct := net.entity(client.account, row.userId);
    if direct.Some? {
      return Success(direct);
    }
    if row.chatId.None? {
      return Failure(NoChatId);
    }
    var chat := net.entity(client.account, row.chatId.value);
    if chat.None? {
      return Failure(ChatUnreachable);
    }
    var members := net.participants(client.account, chat.value.id);
    if members.None? {
      return Failure(ParticipantsUnavailable);
    }
    var found := ScanFirst(members.value, row.userId);
    return Success(found);
  }

  /** The participant scan of the message loop: the first member with the wanted id. */
  method ScanFirst(members: seq<Peer>, userId: int) returns (user: Option<Peer>)
    ensures user == FirstMatch(members, userId)
  {
    user := None;
    for i := 0 to |members|
      invariant forall k :: 0 <= k < i ==> members[k].id != userId
      invariant FirstMatch(members, userId) == FirstMatch(members[i..], userId)
    {
      if members[i].id == userId {
        user := Some(members[i]);
        break;
      }
      assert members[i..][1..] == members[i + 1..];
    }
    if user.None? {
      assert members[|members|..] == [];
    }
  }
}

=== FILE: eventsender.dfy ===
/**
 * The event-driven sender of main.py: the four Telegram update handlers pick
 * the first chat configuration that names the chat, draw one of its accounts
 * and hand every template of the right kind to
 * `send_message_from_model_with_client`, which keeps the sticky
 * `users` map (user id to account id), resolves the user through the chat's
 * participant list or direct lookup, and sends text or media.
 */
module EventSender {
  import opened Wrappers
  import opened Content
  import opened PyText
  import Dispatcher

  /** A ChatConfig row: the stored chat string, its accounts and its two template lists. */
  datatype ChatConfig = ChatConfig(
    chat: string,
    accounts: seq<AccountId>,
    welcomeMessages: seq<Template>,
    memberLeftMessages: seq<Template>)

  /** The chat of an update as the bot sees it. */
  datatype Chat = Chat(id: int, title: Option<string>)

  /** The four kinds of update the sender reacts to, with the user id each handler passes on. */
  datatype Event =
    | NewChatMembers(chat: Chat, fromUser: int)
    | LeftChatMember(chat: Chat, fromUser: int)
    | JoinRequest(chat: Chat, userChatId: int)
    | ChatMemberUpdate(chat: Chat, fromUser: int, status: string)

  /** The exceptions that leave a handler: `choice([])`, `get_participants` or `get_entity` raising. */
  datatype SendError = NoAccounts | ParticipantsUnavailable | EntityUnavailable

  /** The sticky map and what one or more sends did to it and to the log. */
  datatype Outcome = Outcome(users: map<int, AccountId>, sends: seq<Action>, failure: Option<SendError>)

  /** `chat_config.chat in [str(chat.id), chat.title]`. */
  predicate Applies(config: ChatConfig, chat: Chat)
  {
    config.chat == IntToString(chat.id) || (chat.title.Some? && config.chat == chat.title.value)
  }

  /** The configuration the handler loop stops at: the first one that applies. */
  function FirstApplicable(configs: seq<ChatConfig>, chat: Chat): (r: Option<ChatConfig>)
    ensures r.Some? ==> r.value in configs && Applies(r.value, chat)
    ensures r.None? <==> forall c :: c in configs ==> !Applies(c, chat)
  {
    if configs == [] then None
    else if Applies(configs[0], chat) then Some(configs[0])
    else FirstApplicable(configs[1..], chat)
  }

  /** Configurations before the first applicable one are skipped; later ones are never looked at. */
  lemma {:induction false} FirstApplicableIsFirst(configs: seq<ChatConfig>, chat: Chat, k: nat)
    requires k < |configs| && Applies(configs[k], chat)
    requires forall j :: 0 <= j < k ==> !Applies(configs[j], chat)
    ensures FirstApplicable(configs, chat) == Some(configs[k])
    decreases k
  {
    if k > 0 {
      assert !Applies(configs[0], chat);
      FirstApplicableIsFirst(configs[1..], chat, k - 1);
    }
  }

  /** Python truthiness of the `chat` argument: given and not 0. */
  predicate ChatTruthy(chat: Option<int>)
  {
    chat.Some? && chat.value != 0
  }

  /** The participant scan without `break`: a later member with the id overwrites an earlier one. */
  function LastMatch(members: seq<Peer>, userId: int): Option<Peer>
  {
    if members == [] then None
    else if members[|members| - 1].id == userId then Some(members[|members| - 1])
    else LastMatch(members[..|members| - 1], userId)
  }

  /** The scan finds a member with the wanted id, and finds none only when there is none. */
  lemma {:induction false} LastMatchSound(members: seq<Peer>, userId: int)
    ensures var r := LastMatch(members, userId);
            && (r.Some? ==> r.value in members && r.value.id == userId)
            && (r.None? <==> forall m :: m in members ==> m.id != userId)
    decreases |members|
  {
    if members != [] {
      var init := members[..|members| - 1];
      LastMatchSound(init, userId);
      assert members == init + [members[|members| - 1]];
    }
  }

  /** The target is the last member with the wanted id. */
  lemma {:induction false} LastMatchIsLast(members: seq<Peer>, userId: int, k: nat)
    requires k < |members| && members[k].id == userId
    requires forall j :: k < j < |members| ==> members[j].id != userId
    ensures LastMatch(members, userId) == Some(members[k])
    decreases |members|
  {
    if k < |members| - 1 {
      LastMatchIsLast(members[..|members| - 1], userId, k);
    }
  }

  /**
   * When at most one member carries the wanted id, the scan without `break`
   * here and the scan with `break` of the queue dispatcher find the same member.
   */
  lemma LastMatchIsFirstWhenUnique(members: seq<Peer>, userId: int)
    requires forall i, j ::
               (0 <= i < |members| && 0 <= j < |members| && members[i].id == userId && members[j].id == userId) ==> i == j
    ensures LastMatch(members, userId) == Dispatcher.FirstMatch(members, userId)
  {
    if k :| 0 <= k < |members| && members[k].id == userId {
      LastMatchIsLast(members, userId, k);
      Dispatcher.FirstMatchIsFirst(members, userId, k);
    } else {
      LastMatchSound(members, userId);
    }
  }

  /** `get_entity(user_id)`, with its exception. */
  function Direct(account: AccountId, userId: int, net: Network): Result<Peer, SendError>
  {
    match net.entity(account, userId)
    case None => Failure(EntityUnavailable)
    case Some(p) => Success(p)
  }

  /**
   * Whom a send goes to: with a truthy chat, the participant list is fetched
   * once (the `while` body ends in `break`) and the last member with the id
   * is the target; with no chat or no such member, direct lookup is used.
   */
  function Target(account: AccountId, userId: int, chat: Option<int>, net: Network): Result<Peer, SendError>
  {
    if ChatTruthy(chat) then
      match net.participants(account, chat.value)
      case None => Failure(ParticipantsUnavailable)
      case Some(members) =>
        match LastMatch(members, userId)
        case Some(m) => Success(m)
        case None => Direct(account, userId, net)
    else Direct(account, userId, net)
  }

  /**
   * Which oracle decides the target, and that the other one is then never
   * consulted; a user who is not (yet) a participant, such as a join
   * requester, falls back to direct lookup.
   */
  lemma TargetOrder(account: AccountId, userId: int, chat: Option<int>, net: Network,
                    otherEntity: (AccountId, int) -> Option<Peer>,
                    otherParticipants: (AccountId, int) -> Option<seq<Peer>>)
    ensures !ChatTruthy(chat) ==>
              Target(account, userId, chat, net) == Direct(account, userId, net)
              && Target(account, userId, chat, net) == Target(account, userId, chat, net.(participants := otherParticipants))
              && (Target(account, userId, chat, net).Success? <==> net.entity(account, userId).Some?)
    ensures ChatTruthy(chat) && net.participants(account, chat.value).Some?
            && LastMatch(net.participants(account, chat.value).value, userId).Some? ==>
              var m := LastMatch(net.participants(account, chat.value).value, userId).value;
              Target(account, userId, chat, net) == Target(account, userId, chat, net.(entity := otherEntity))
              && Target(account, userId, chat, net) == Success(m)
              && m in net.participants(account, chat.value).value && m.id == userId
    ensures ChatTruthy(chat) && net.participants(account, chat.value).None? ==>
              Target(account, userId, chat, net) == Failure(ParticipantsUnavailable)
    ensures ChatTruthy(chat) && net.participants(account, chat.value).Some?
            && LastMatch(net.participants(account, chat.value).value, userId).None? ==>
              Target(account, userId, chat, net) == Direct(account, userId, net)
  {
    if ChatTruthy(chat) && net.participants(account, chat.value).Some? {
      LastMatchSound(net.participants(account, chat.value).value, userId);
    }
  }

  /** The account a send goes through: the user's recorded one if any, else the one drawn. */
  function StickyAccount(users: map<int, AccountId>, userId: int, account: AccountId): AccountId
  {
    if userId in users then users[userId] else account
  }

  /**
   * `users[user_id] = account_id` after the sticky lookup: writing back an
   * existing entry leaves the map as it was, so only a new user adds an entry.
   */
  function Bind(users: map<int, AccountId>, userId: int, account: AccountId): (r: map<int, AccountId>)
    ensures userId in r && r[userId] == StickyAccount(users, userId, account)
    ensures forall u :: u != userId ==> (u in r <==> u in users)
  {
    if userId in users then users else users[userId := account]
  }

  /**
   * One call of `send_message_from_model_with_client`: the sticky entry is
   * written before the target is looked up, so it stays even when the lookup raises.
   */
  function SendOnce(users: map<int, AccountId>, userId: int, model: Template, account: AccountId,
                    chat: Option<int>, net: Network): Outcome
  {
    var used := StickyAccount(users, userId, account);
    var after := Bind(users, userId, account);
    match Target(used, userId, chat, net)
    case Failure(f) => Outcome(after, [], Some(f))
    case Success(p) => Outcome(after, Addressed(used, p, Outgoing(model)), None)
  }

  /**
   * The sticky map after a send: an existing entry wins over the drawn
   * account and is never changed, a new user is bound to the drawn account,
   * other users are untouched, and every send goes through the bound account.
   */
  lemma StickyIdentity(users: map<int, AccountId>, userId: int, model: Template, account: AccountId,
                       chat: Option<int>, net: Network)
    ensures var o := SendOnce(users, userId, model, account, chat, net);
            && userId in o.users
            && (userId in users ==> o.users == users)
            && (userId !in users ==> o.users[userId] == account)
            && (forall u :: u != userId ==> (u in o.users <==> u in users))
            && (forall u :: u != userId && u in users ==> o.users[u] == users[u])
            && (forall k :: 0 <= k < |o.sends| ==> o.sends[k].account == o.users[userId])
  {
    var o := SendOnce(users, userId, model, account, chat, net);
    var used := StickyAccount(users, userId, account);
    match Target(used, userId, chat, net)
    case Failure(_) =>
    case Success(p) =>
      forall k | 0 <= k < |o.sends|
        ensures o.sends[k].account == o.users[userId]
      {
        AddressedAt(used, p, Outgoing(model), k);
      }
  }

  /** The `for` loop over one template list: each template in order, until a send raises. */
  function SendAll(users: map<int, AccountId>, userId: int, models: seq<Template>, account: AccountId,
                   chat: Option<int>, net: Network): Outcome
  {
    if models == [] then Outcome(users, [], None)
    else
      var prior := SendAll(users, userId, models[..|models| - 1], account, chat, net);
      if prior.failure.Some? then prior
      else
        var o := SendOnce(prior.users, userId, models[|models| - 1], account, chat, net);
        Outcome(o.users, prior.sends + o.sends, o.failure)
  }

  /** Everything a list of templates sends, one template after the other. */
  function AllOutgoing(models: seq<Template>): seq<Payload>
  {
    if models == [] then [] else AllOutgoing(models[..|models| - 1]) + Outgoing(models[|models| - 1])
  }

  /** The outcome of a template loop whose every send goes through `used` and has target `target`. */
  function AllOrNothing(bound: map<int, AccountId>, used: AccountId, target: Result<Peer, SendError>,
                        models: seq<Template>): Outcome
  {
    match target
    case Success(p) => Outcome(bound, Addressed(used, p, AllOutgoing(models)), None)
    case Failure(f) => Outcome(bound, [], Some(f))
  }

  /**
   * A handler's template loop is all or nothing: every template goes, in
   * order, through one account to one target, or the first send raises and
   * nothing is sent; either way the user is bound to that account.
   */
  lemma {:induction false} SendAllAllOrNothing(users: map<int, AccountId>, userId: int, models: seq<Template>,
                                               account: AccountId, chat: Option<int>, net: Network)
    requires models != []
    ensures var used := StickyAccount(users, userId, account);
            SendAll(users, userId, models, account, chat, net)
              == AllOrNothing(Bind(users, userId, account), used, Target(used, userId, chat, net), models)
    decreases |models|
  {
    var n := |models|;
    var init := models[..n - 1];
    if n == 1 {
      assert init == [];
      SendAllFirst(users, userId, models, account, chat, net);
    } else {
      SendAllAllOrNothing(users, userId, init, account, chat, net);
      if Target(StickyAccount(users, userId, account), userId, chat, net).Success? {
        SendAllNext(users, userId, models, account, chat, net);
      } else {
        SendAllNextFails(users, userId, models, account, chat, net);
      }
    }
  }

  /** The loop's first template binds the user and sends that template alone. */
  lemma SendAllFirst(users: map<int, AccountId>, userId: int, models: seq<Template>,
                     account: AccountId, chat: Option<int>, net: Network)
    requires |models| == 1
    ensures var used := StickyAccount(users, userId, account);
            SendAll(users, userId, models, account, chat, net)
              == AllOrNothing(Bind(users, userId, account), used, Target(used, userId, chat, net), models)
  {
    var used := StickyAccount(users, userId, account);
    var m := models[0];
    var t := Target(used, userId, chat, net);
    var o := SendOnce(users, userId, m, account, chat, net);
    assert SendAll(users, userId, models, account, chat, net) == Outcome(o.users, [] + o.sends, o.failure) by {
      assert models[..0] == [];
      assert SendAll(users, userId, models[..0], account, chat, net) == Outcome(users, [], None);
    }
    assert [] + o.sends == o.sends;
    if t.Success? {
      assert AllOutgoing(models) == Outgoing(m) by {
        assert models[..0] == [];
        assert AllOutgoing(models) == [] + Outgoing(m);
      }
    }
  }

  /** A further template, once the target is known, keeps the binding and appends its own sends. */
  lemma SendAllNext(users: map<int, AccountId>, userId: int, models: seq<Template>,
                    account: AccountId, chat: Option<int>, net: Network)
    requires |models| > 1
    requires Target(StickyAccount(users, userId, account), userId, chat, net).Success?
    requires var used := StickyAccount(users, userId, account);
             SendAll(users, userId, models[..|models| - 1], account, chat, net)
               == AllOrNothing(Bind(users, userId, account), used, Target(used, userId, chat, net), models[..|models| - 1])
    ensures var used := StickyAccount(users, userId, account);
            SendAll(users, userId, models, account, chat, net)
              == AllOrNothing(Bind(users, userId, account), used, Target(used, userId, chat, net), models)
  {
    var used := StickyAccount(users, userId, account);
    var bound := Bind(users, userId, account);
    var init, last := models[..|models| - 1], models[|models| - 1];
    var t := Target(used, userId, chat, net);
    var prior := SendAll(users, userId, init, account, chat, net);
    var p := t.value;
    var o := SendOnce(bound, userId, last, account, chat, net);
    assert o == Outcome(bound, Addressed(used, p, Outgoing(last)), None) by {
      assert StickyAccount(bound, userId, account) == used;
      assert Bind(bound, userId, account) == bound;
    }
    assert SendAll(users, userId, models, account, chat, net)
        == Outcome(bound, Addressed(used, p, AllOutgoing(init)) + o.sends, None) by {
      assert prior == Outcome(bound, Addressed(used, p, AllOutgoing(init)), None);
    }
    assert Addressed(used, p, AllOutgoing(models)) == Addressed(used, p, AllOutgoing(init)) + o.sends by {
      assert AllOutgoing(models) == AllOutgoing(init) + Outgoing(last);
      AddressedAppend(used, p, AllOutgoing(init), Outgoing(last));
    }
  }

  /** Once the target lookup has raised, a further template changes nothing. */
  lemma SendAllNextFails(users: map<int, AccountId>, userId: int, models: seq<Template>,
                         account: AccountId, chat: Option<int>, net: Network)
    requires |models| > 1
    requires Target(StickyAccount(users, userId, account), userId, chat, net).Failure?
    requires var used := StickyAccount(users, userId, account);
             SendAll(users, userId, models[..|models| - 1], account, chat, net)
               == AllOrNothing(Bind(users, userId, account), used, Target(used, userId, chat, net), models[..|models| - 1])
    ensures var used := StickyAccount(users, userId, account);
            SendAll(users, userId, models, account, chat, net)
              == AllOrNothing(Bind(users, userId, account), used, Target(used, userId, chat, net), models)
  {
    assert SendAll(users, userId, models[..|models| - 1], account, chat, net).failure.Some?;
  }

  /** What an update asks for: the welcome list, the member-left list, or nothing. */
  datatype Reaction = Welcome | Farewell | Ignore

  function ReactionOf(e: Event): Reaction
  {
    match e
    case NewChatMembers(_, _) => Welcome
    case LeftChatMember(_, _) => Farewell
    case JoinRequest(_, _) => Welcome
    case ChatMemberUpdate(_, _, status) =>
      if status == "member" then Welcome else if status == "left" then Farewell else Ignore
  }

  /** The user id each handler passes on: the join request's `user_chat_id`, otherwise `from_user.id`. */
  function Recipient(e: Event): int
  {
    match e
    case NewChatMembers(_, u) => u
    case LeftChatMember(_, u) => u
    case JoinRequest(_, u) => u
    case ChatMemberUpdate(_, u, _) => u
  }

  /**
   * One update: the first applicable configuration, one account drawn from
   * it, then its welcome list with the chat or its member-left list without.
   */
  function Handle(configs: seq<ChatConfig>, e: Event, pick: nat, users: map<int, AccountId>, net: Network): Outcome
  {
    var reaction := ReactionOf(e);
    if reaction == Ignore then Outcome(users, [], None)
    else
      match FirstApplicable(configs, e.chat)
      case None => Outcome(users, [], None)
      case Some(config) =>
        if config.accounts == [] then Outcome(users, [], Some(NoAccounts))
        else
          var account := Choose(config.accounts, pick);
          if reaction == Welcome then SendAll(users, Recipient(e), config.welcomeMessages, account, Some(e.chat.id), net)
          else SendAll(users, Recipient(e), config.memberLeftMessages, account, None, net)
  }

  /**
   * Config selection: an update for a chat no configuration names, or a
   * member update with another status, changes nothing; otherwise the first
   * applicable configuration's list of the right kind goes through the
   * template loop with one of its accounts (or the sticky one): sent whole
   * and in order when the lookup succeeds, nothing sent and the handler
   * raising when it fails.
   */
  lemma HandleSelectsFirstConfig(configs: seq<ChatConfig>, e: Event, pick: nat, users: map<int, AccountId>, net: Network)
    ensures ReactionOf(e) == Ignore || FirstApplicable(configs, e.chat).None? ==>
              Handle(configs, e, pick, users, net) == Outcome(users, [], None)
    ensures ReactionOf(e) != Ignore && FirstApplicable(configs, e.chat).Some? ==>
              var config := FirstApplicable(configs, e.chat).value;
              var models := if ReactionOf(e) == Welcome then config.welcomeMessages else config.memberLeftMessages;
              var chat := if ReactionOf(e) == Welcome then Some(e.chat.id) else None;
              config in configs && Applies(config, e.chat)
              && (config.accounts == [] ==> Handle(configs, e, pick, users, net) == Outcome(users, [], Some(NoAccounts)))
              && (config.accounts != [] ==>
                    Handle(configs, e, pick, users, net)
                    == SendAll(users, Recipient(e), models, Choose(config.accounts, pick), chat, net))
              && (config.accounts != [] && models == [] ==> Handle(configs, e, pick, users, net) == Outcome(users, [], None))
              && (config.accounts != [] && models != [] ==>
                    var used := StickyAccount(users, Recipient(e), Choose(config.accounts, pick));
                    Handle(configs, e, pick, users, net).users == Bind(users, Recipient(e), Choose(config.accounts, pick))
                    && (Target(used, Recipient(e), chat, net).Success? ==>
                          Handle(configs, e, pick, users, net).failure.None?
                          && Handle(configs, e, pick, users, net).sends
                             == Addressed(used, Target(used, Recipient(e), chat, net).value, AllOutgoing(models)))
                    && (Target(used, Recipient(e), chat, net).Failure? ==>
                          Handle(configs, e, pick, users, net).sends == []
                          && Handle(configs, e, pick, users, net).failure == Some(Target(used, Recipient(e), chat, net).error)))
  {
    if ReactionOf(e) != Ignore && FirstApplicable(configs, e.chat).Some? {
      var config := FirstApplicable(configs, e.chat).value;
      var models := if ReactionOf(e) == Welcome then config.welcomeMessages else config.memberLeftMessages;
      var chat := if ReactionOf(e) == Welcome then Some(e.chat.id) else None;
      if config.accounts != [] && models != [] {
        SendAllAllOrNothing(users, Recipient(e), models, Choose(config.accounts, pick), chat, net);
      }
    }
  }

  /** The process-wide state of main.py's sender: the `users` dict and what has been sent. */
  class Sender {
    var users: map<int, AccountId>
    const outbox: Outbox

    constructor ()
      ensures users == map[] && fresh(outbox) && outbox.log == []
    {
      users := map[];
      outbox := new Outbox();
    }

    /** `send_message_from_model_with_client`. */
    method SendFromModel(userId: int, model: Template, account: AccountId, chat: Option<int>, net: Network)
      returns (failure: Option<SendError>)
      modifies this, outbox
      ensures var o := SendOnce(old(users), userId, model, account, chat, net);
              users == o.users && outbox.log == old(outbox.log) + o.sends && failure == o.failure
    {
      var used := account;
      if userId in users {
        used := users[userId];
      }
      users := users[userId := used];
      var user: Option<Peer> := None;
      var memberInChat := false;
      if ChatTruthy(chat) {
        // The `while not member_in_chat` body ends in `break`: one fetch, one scan.
        var members := net.participants(used, chat.value);
        if members.None? {
          return Some(ParticipantsUnavailable);
        }
        user, memberInChat := ScanLast(members.value, userId);
      }
      if !ChatTruthy(chat) || !memberInChat {
        user := net.entity(used, userId);
        if user.None? {
          return Some(EntityUnavailable);
        }
      }
      outbox.SendModel(used, user.value, model);
      return None;
    }

    /** The `for` loop of a handler over one template list, each call with the same drawn account. */
    method SendTemplates(userId: int, models: seq<Template>, account: AccountId, chat: Option<int>, net: Network)
      returns (failure: Option<SendError>)
      modifies this, outbox
      ensures var o := SendAll(old(users), userId, models, account, chat, net);
              users == o.users && outbox.log == old(outbox.log) + o.sends && failure == o.failure
    {
      for i := 0 to |models|
        invariant SendAll(old(users), userId, models[..i], account, chat, net).failure.None?
        invariant users == SendAll(old(users), userId, models[..i], account, chat, net).users
        invariant outbox.log == old(outbox.log) + SendAll(old(users), userId, models[..i], account, chat, net).sends
      {
        ghost var prior := SendAll(old(users), userId, models[..i], account, chat, net);
        assert models[..i + 1][..i] == models[..i];
        failure := SendFromModel(userId, models[i], account, chat, net);
        ghost var o := SendOnce(prior.users, userId, models[i], account, chat, net);
        ConcatAssoc(old(outbox.log), prior.sends, o.sends);
        if failure.Some? {
          SendAllStopsAtFailure(old(users), userId, models, account, chat, net, i + 1);
          return;
        }
      }
      assert models[..|models|] == models;
      return None;
    }

    /** One of the four handlers, for the update `e` and the configurations in table order. */
    method HandleEvent(configs: seq<ChatConfig>, e: Event, pick: nat, net: Network) returns (failure: Option<SendError>)
      modifies this, outbox
      ensures var o := Handle(configs, e, pick, old(users), net);
              users == o.users && outbox.log == old(outbox.log) + o.sends && failure == o.failure
    {
      var reaction := ReactionOf(e);
      if reaction == Ignore {
        return None;
      }
      var config := FindConfig(configs, e.chat);
      if config.None? {
        return None;
      }
      if config.value.accounts == [] {
        return Some(NoAccounts);
      }
      var account := Choose(config.value.accounts, pick);
      if reaction == Welcome {
        failure := SendTemplates(Recipient(e), config.value.welcomeMessages, account, Some(e.chat.id), net);
      } else {
        failure := SendTemplates(Recipient(e), config.value.memberLeftMessages, account, None, net);
      }
    }
  }

  /** Once a template's send has raised, the later templates are not sent. */
  lemma {:induction false} SendAllStopsAtFailure(users: map<int, AccountId>, userId: int, models: seq<Template>,
                                                 account: AccountId, chat: Option<int>, net: Network, i: nat)
    requires i <= |models|
    requires SendAll(users, userId, models[..i], account, chat, net).failure.Some?
    ensures SendAll(users, userId, models, account, chat, net) == SendAll(users, userId, models[..i], account, chat, net)
    decreases |models|
  {
    if i < |models| {
      assert models[..|models| - 1][..i] == models[..i];
      SendAllStopsAtFailure(users, userId, models[..|models| - 1], account, chat, net, i);
    } else {
      assert models[..i] == models;
    }
  }

  /** The configuration loop with `break`: the first configuration naming the chat. */
  method FindConfig(configs: seq<ChatConfig>, chat: Chat) returns (config: Option<ChatConfig>)
    ensures config == FirstApplicable(configs, chat)
  {
    config := None;
    for i := 0 to |configs|
      invariant FirstApplicable(configs, chat) == FirstApplicable(configs[i..], chat)
    {
      if Applies(configs[i], chat) {
        config := Some(configs[i]);
        break;
      }
      assert configs[i..][1..] == configs[i + 1..];
    }
    if config.None? {
      assert configs[|configs|..] == [];
    }
  }

  /** The membership `for` loop: `user` and `member_in_chat` set at every member with the id. */
  method ScanLast(members: seq<Peer>, userId: int) returns (user: Option<Peer>, memberInChat: bool)
    ensures user == LastMatch(members, userId)
    ensures memberInChat <==> user.Some?
  {
    user, memberInChat := None, false;
    for i := 0 to |members|
      invariant user == LastMatch(members[..i], userId)
      invariant memberInChat <==> user.Some?
    {
      assert members[..i + 1][..i] == members[..i];
      if members[i].id == userId {
        user, memberInChat := Some(members[i]), true;
      }
    }
    assert members[..|members|] == members;
  }
}

=== FILE: pytext.dfy ===
/**
 * The handful of Python string operations the bot relies on: `str()` of an
 * int, `int()` of a str, `s.split(':')[-1]`, and the two chat-id regular
 * expressions `^-\d+$` and `^-\d+$l`. Only ASCII digits are modelled.
 */
module PyText {
  import opened Wrappers

  predicate IsDigit(c: char) { '0' <= c <= '9' }

  predicate AllDigits(s: string) { forall i :: 0 <= i < |s| ==> IsDigit(s[i]) }

  function DigitChar(d: nat): (c: char)
    requires d < 10
    ensures IsDigit(c)
  {
    ('0' as int + d) as char
  }

  function DigitValue(c: char): (d: nat)
    requires IsDigit(c)
    ensures d < 10 && DigitChar(d) == c
  {
    c as int - '0' as int
  }

  /** Python's `str(n)` for `n >= 0`: decimal, most significant digit first. */
  function NatToString(n: nat): (s: string)
    ensures |s| >= 1 && AllDigits(s)
    ensures s[0] != '0' || n == 0
    decreases n
  {
    if n < 10 then [DigitChar(n)] else NatToString(n / 10) + [DigitChar(n % 10)]
  }

  /** Python's `str(n)` for any int. */
  function IntToString(n: int): (s: string)
  {
    if n < 0 then "-" + NatToString(-n) else NatToString(n)
  }

  /** The value of a string of decimal digits. */
  function DigitsValue(s: string): nat
    requires AllDigits(s)
  {
    if s == [] then 0 else DigitsValue(s[..|s| - 1]) * 10 + DigitValue(s[|s| - 1])
  }

  /**
   * Python's `int(s)` on a str: an optional sign followed by one or more
   * digits; anything else raises ValueError, which is None here.
   */
  function ParseInt(s: string): (r: Option<int>)
    ensures r.Some? ==> |s| >= 1
  {
    if |s| >= 2 && (s[0] == '-' || s[0] == '+') && AllDigits(s[1..]) then
      Some(if s[0] == '-' then -(DigitsValue(s[1..]) as int) else DigitsValue(s[1..]))
    else if |s| >= 1 && AllDigits(s) then
      Some(DigitsValue(s))
    else
      None
  }

  lemma {:induction false} DigitsValueOfNatToString(n: nat)
    ensures DigitsValue(NatToString(n)) == n
    decreases n
  {
    var s := NatToString(n);
    if n >= 10 {
      DigitsValueOfNatToString(n / 10);
      assert s[..|s| - 1] == NatToString(n / 10);
    }
  }

  /** `int(str(n)) == n` for every int. */
  lemma ParseIntOfIntToString(n: int)
    ensures ParseInt(IntToString(n)) == Some(n)
  {
    var s := IntToString(n);
    if n < 0 {
      assert s[1..] == NatToString(-n);
      assert s[0] == '-';
      DigitsValueOfNatToString(-n);
    } else {
      assert s == NatToString(n);
      assert IsDigit(s[0]);
      DigitsValueOfNatToString(n);
    }
  }

  /** `s.split(sep)[-1]`: what follows the last `sep`, or all of `s` when there is none. */
  function LastSegment(s: string, sep: char): (r: string)
    ensures sep !in r
    ensures |r| <= |s| && r == s[|s| - |r|..]
    ensures |r| < |s| ==> s[|s| - |r| - 1] == sep
  {
    if s == [] then []
    else if s[|s| - 1] == sep then []
    else LastSegment(s[..|s| - 1], sep) + [s[|s| - 1]]
  }

  lemma {:induction false} LastSegmentAfterSeparator(p: string, sep: char, t: string)
    requires sep !in t
    ensures LastSegment(p + [sep] + t, sep) == t
    decreases |t|
  {
    var s := p + [sep] + t;
    if t != [] {
      assert s[..|s| - 1] == p + [sep] + t[..|t| - 1];
      LastSegmentAfterSeparator(p, sep, t[..|t| - 1]);
    } else {
      assert s[|s| - 1] == sep;
    }
  }

  /**
   * Where Python's `$` (without MULTILINE) succeeds: at the end of the
   * string, or just before a newline that ends it.
   */
  predicate EndAnchor(s: string, k: nat)
  {
    k == |s| || (k + 1 == |s| && s[k] == '\n')
  }

  /** `re.findall(r'^-\d+$', s)` is non-empty. */
  predicate IsNumericChatId(s: string)
  {
    exists k: nat :: 2 <= k <= |s| && s[0] == '-' && AllDigits(s[1..k]) && EndAnchor(s, k)
  }

  /** `re.findall(r'^-\d+$l', s)` is non-empty: a literal `l` must follow the end anchor. */
  predicate MatchesEndThenL(s: string)
  {
    exists k: nat :: 2 <= k < |s| && s[0] == '-' && AllDigits(s[1..k]) && EndAnchor(s, k) && s[k] == 'l'
  }

  /** The pattern `^-\d+$l` matches no string at all. */
  lemma EndThenLNeverMatches(s: string)
    ensures !MatchesEndThenL(s)
  {
  }

  /** `str(n)` is a numeric chat id in the `^-\d+$` sense exactly when `n` is negative. */
  lemma NumericChatIdOfIntToString(n: int)
    ensures IsNumericChatId(IntToString(n)) <==> n < 0
  {
    var s := IntToString(n);
    if n < 0 {
      assert s[1..|s|] == NatToString(-n);
      assert EndAnchor(s, |s|);
    } else {
      assert IsDigit(s[0]);
    }
  }

  /** `int(s)` of a string that matched `^-\d+$`; `int` ignores the trailing newline `$` lets through. */
  function NumericChatValue(s: string): (n: int)
    requires IsNumericChatId(s)
    ensures n <= 0
  {
    var k := if s[|s| - 1] == '\n' then |s| - 1 else |s|;
    assert EndAnchor(s, k) && AllDigits(s[1..k]) by {
      var j: nat :| 2 <= j <= |s| && s[0] == '-' && AllDigits(s[1..j]) && EndAnchor(s, j);
      assert IsDigit(s[j - 1]);
      assert j == k;
    }
    -(DigitsValue(s[1..k]) as int)
  }

  /** A negative chat id survives `str` and then `int` of the matched string. */
  lemma NumericChatValueOfIntToString(n: int)
    requires n < 0
    ensures IsNumericChatId(IntToString(n)) && NumericChatValue(IntToString(n)) == n
  {
    NumericChatIdOfIntToString(n);
    var s := IntToString(n);
    assert s[1..|s|] == NatToString(-n);
    assert IsDigit(s[|s| - 1]);
    DigitsValueOfNatToString(-n);
  }
}

=== FILE: wrappers.dfy ===
/** Option and Result, used for Python's None and for exceptions that escape a call. */
module Wrappers {

  datatype Option<+T> = None | Some(value: T)

  datatype Result<+T, +E> = Success(value: T) | Failure(error: E)

  /** The value of key `k` in `m`, or None: SQLAlchemy's `session.get` on a table keyed by `k`. */
  function Lookup<K, V>(m: map<K, V>, k: K): (r: Option<V>)
    ensures r.Some? <==> k in m
    ensures r.Some? ==> r.value == m[k]
  {
    if k in m then Some(m[k]) else None
  }
}
